=== FILE: README.md ===
# CHIP-8 interpreter core in Dafny

A model of the core of a small CHIP-8 interpreter written in C. The machine
(`struct Chip8`: 4 KiB of memory, a 64x32 display of one-byte cells, a
16-slot return stack, sixteen 8-bit registers V0..VF, sixteen key latches, two
8-bit timers, 16-bit stack pointer, program counter and index register, and
the `need_draw` / `play_beep` flags) is the immutable datatype
`State.Machine`. The single step `emulate` is the pure function
`Engine.Step(m, rnd)`. It returns one of four outcomes:

- `Advanced(next)`: the instruction ran and so did the shared epilogue, which
  counts the timers down, raises the beep flag and advances pc by 2;
- `NoEpilogue(next)`: the instruction returned early (1nnn, 2nnn, Bnnn, and
  Fx0A with no key down);
- `Fatal(opcode)`: the `UNKNOWN_OP_CODE` exit;
- `Undefined(fault)`: the C code would index an array out of its bounds.
  This happens for an out-of-range stack slot, memory address, display cell
  or key latch. The C code does not check these accesses, so the model names
  the access instead of guessing at the memory corruption.

Machine creation, the `load_game` size rule and `handle_key` are modelled
too. All C integer conversions are written out: `unsigned char` arithmetic
wraps modulo 256 and `unsigned short` arithmetic modulo 65536
(`Base.ToByte`, `Base.ToWord`).

The modules follow the C code:

- `Base`: byte/word types, `Option`, `Result`;
- `Bits`: C's `&`, `|` and `^` on unsigned values, digit by digit;
- `State`: constants and the machine;
- `Decode`: opcode fetch and fields;
- `Alu`: 7xnn and the 8xyN group;
- `Block`: Fx33, Fx55, Fx65;
- `Keypad`: `handle_key` and the Fx0A scan;
- `Sprite`: Dxyn as written, two nested loops;
- `SpriteSpec`: Dxyn stated without loops;
- `Boot`: `create_chip8_emulator`, `load_game`;
- `Engine`: `emulate`;
- `StepProperties`: per-instruction-family properties of one step.

## Model

| member | source | states |
|---|---|---|
| Base.ToByte | chip8.h:25 | the conversion to `unsigned char` keeps values below 256 and otherwise agrees with its argument modulo 256 |
| Base.ToWord | chip8.h:31-33 | the conversion to `unsigned short` keeps values below 65536 and otherwise agrees modulo 65536 |
| Decode.Fetch | chip8.c:66 | the opcode's high byte is memory[pc] and its low byte is memory[pc+1] |
| Decode.DecodeFields | chip8.c:68-73 | the opcode reassembles from its top nibble and nnn, nnn from x and nn, nn from y and n; nnn is 12 bits |
| Decode.DecodeEncode | chip8.c:68-73 | decoding an opcode assembled from four nibbles yields those four nibbles |
| Decode.EncodeDecode | chip8.c:68-73 | reassembling the decoded nibbles gives back the opcode |
| Bits.And | chip8.c:138-140 | C's `&` on unsigned values never exceeds either operand |
| Bits.Or | chip8.c:135-137 | C's bitwise OR on unsigned values is at least each operand and at most their sum |
| Bits.Xor | chip8.c:141-143 | C's `^` on unsigned values is at most the sum of its operands |
| Bits.AndBits | chip8.c:138-140 | binary digit k of `a & b` is 1 exactly when digit k of both operands is 1 |
| Bits.OrBits | chip8.c:135-137 | binary digit k of the bitwise OR of a and b is 1 exactly when digit k of either operand is 1 |
| Bits.XorBits | chip8.c:141-143 | binary digit k of `a ^ b` is 1 exactly when digit k of the operands differs |
| Bits.Bounded | chip8.c:135-143 | none of AND, OR, XOR carries out of the width k of its operands |
| Bits.ByteOps | chip8.c:135-143 | on two bytes each of AND, OR, XOR yields a byte, so the compound assignments to an `unsigned char` never truncate |
| Bits.SingleBit | chip8.c:195 | `a & (1 << k)` is nonzero exactly when binary digit k of a is 1 |
| Bits.ShiftedMask | chip8.c:195 | `0x80 >> X` for X < 8 is the single digit 7 - X |
| Bits.SelfOps | chip8.c:135-143 | a OR a is a, a AND a is a, and a XOR a is 0 |
| Alu.Arith | chip8.c:129-167 | 8xyN is defined exactly for N in 0..7 and E (8..D and F are unknown opcodes); it changes only V[x] and VF, and only V[x] for N <= 3; 8xy0 copies V[y] into V[x] |
| Alu.LogicOps | chip8.c:135-143 | 8xy1, 8xy2 and 8xy3 set each binary digit of V[x] to the OR, AND and XOR of that digit of V[x] and V[y] |
| Alu.LogicOnItself | chip8.c:135-143 | 8xx1 and 8xx2 leave every register unchanged; 8xx3 clears V[x] and nothing else |
| Alu.AddWithCarry | chip8.c:144-147 | 8xy4 with x != F and y != F: V[x] becomes (V[x]+V[y]) mod 256 and VF is 1 exactly when the sum exceeds 255 |
| Alu.SubtractWithFlag | chip8.c:148-151 | 8xy5 with x != F and y != F: V[x] becomes (V[x]-V[y]) mod 256 and VF is 1 exactly when V[x] > V[y] (0 when equal) |
| Alu.ReverseSubtractWithFlag | chip8.c:156-159 | 8xy7 with x != F and y != F: V[x] becomes (V[y]-V[x]) mod 256 and VF is 1 exactly when V[y] > V[x] |
| Alu.ShiftsKeepOutBit | chip8.c:152-163 | with x != F, 8xy6 halves V[x] and puts its old low bit in VF; 8xyE doubles V[x] mod 256 and puts its old top bit in VF; V[y] is ignored |
| Alu.FlagAsDestination | chip8.c:144-159 | 8Fy4, 8Fy5, 8Fy7 with y != F: the flag is written first and then re-read as the destination, so VF ends as (flag + V[y]) mod 256, (flag - V[y]) mod 256 or (V[y] - flag) mod 256 |
| Alu.FlagAsSource | chip8.c:144-151 | 8xF4 and 8xF5 with x != F: the operand is the freshly written flag, not the old VF, and VF ends as that flag |
| Alu.ReverseFlagAsSource | chip8.c:156-159 | 8xF7 with x != F: V[x] becomes (flag - V[x]) mod 256 for the freshly written flag, and VF ends as that flag |
| Alu.ShiftFlagRegister | chip8.c:152-163 | 8Fy6 always leaves VF at 0, and 8FyE leaves it at twice the old top bit of VF, because the flag is written first and then shifted |
| Alu.FlagAsBoth | chip8.c:144-159 | 8FF4 leaves VF at 2 or 0 (the flag added to itself), and 8FF5 and 8FF7 leave it at 0 |
| Alu.AddImmediate | chip8.c:125-127 | 7xnn adds nn to V[x] modulo 256, no carry flag, every other register unchanged |
| Alu.AddImmediateTwice | chip8.c:125-127 | two 7xnn additions compose to one addition of the sum modulo 256 |
| Block.StoreBcd | chip8.c:262-266 | Fx33 succeeds exactly when index+2 is inside memory; it writes three decimal digits whose value is V[x], and leaves every other byte unchanged |
| Block.SaveRegisters | chip8.c:268-272 | Fx55 succeeds exactly when index+x is inside memory; memory[index+i] becomes V[i] for i <= x, and all other bytes are unchanged |
| Block.LoadRegisters | chip8.c:274-278 | Fx65 succeeds exactly when index+x is inside memory; V[i] becomes memory[index+i] for i <= x, and all other registers are unchanged |
| Block.SaveThenLoad | chip8.c:268-278 | Fx65 after Fx55 at the same index restores V0..Vx |
| Keypad.KeyIndex | chip8.c:306-343 | exactly the sixteen keys of the 1234/QWER/ASDF/ZXCV block map to a keypad index; every other key maps to none |
| Keypad.KeyTableBijective | chip8.c:309-343 | the key table is a bijection between those sixteen keys and the indices 0..F |
| Keypad.HandleKey | chip8.c:304-347 | a mapped key sets its latch to `is_down` as an unsigned char; every other latch is unchanged; an unmapped key changes nothing |
| Keypad.ScanKeys | chip8.c:231-239 | the scan finds no key exactly when every latch is 0; otherwise it finds the HIGHEST latch that is nonzero |
| Keypad.PressedKey | chip8.c:231-243 | the Fx0A result: none when no latch is set, else the highest nonzero latch |
| Boot.Create | chip8.c:3-37 | a new machine has pc = 512, `need_draw` set and the font at memory[0..80); nothing else is initialised |
| Boot.LoadGame | chip8.c:39-61 | an image of at most 3584 bytes is copied to memory[512..) with everything else unchanged; a larger one is refused |
| Boot.CreateThenLoad | chip8.c:3-61 | a new machine loaded with an image of 2 to 3584 bytes starts at pc 512 with a redraw requested and the font intact, and its first fetch is the image's first two bytes |
| Sprite.ColumnMask | chip8.c:195 | the mask `0x80 >> X` of sprite column X is the single binary digit 7 - X |
| Sprite.BitSetIsMask | chip8.c:195 | the loop's test `(pixel & (0x80 >> X)) != 0` holds exactly when `Sprite.BitSet`, binary digit 7 - X of the sprite byte, is 1 |
| Sprite.Cell | chip8.c:193 | the cell index is row-major: a column left of the right edge lies on display line V[y]+Y at column V[x]+X; a column past the edge falls on a later line, never wrapping to the same one |
| Sprite.Toggle | chip8.c:198 | `^= 1` flips the low bit of a cell and keeps the others, so it maps 0 and 1 to each other |
| Sprite.DrawColumns | chip8.c:191-200 | the inner loop changes only display cells and VF, keeps a 0/1 display 0/1, and changes nothing on a row without set bits |
| Sprite.DrawRows | chip8.c:188-201 | the outer loop changes only display cells and VF and keeps a 0/1 display 0/1 |
| Sprite.DrawSprite | chip8.c:186-204 | Dxyn changes only display cells, VF and `need_draw`, and always requests a redraw |
| SpriteSpec.LastBefore | chip8.c:188-199 | the last set sprite bit before a position in row-major order, or none if no bit before it is set |
| SpriteSpec.CellInjective | chip8.c:193 | two different bits of one sprite never land on the same display cell |
| SpriteSpec.Columns | chip8.c:191-200 | with x, y != F, the inner loop over a row keeps the draw invariant: cells under earlier set bits are toggled, others are untouched, and VF holds the prior value of the last toggled cell |
| SpriteSpec.Rows | chip8.c:188-201 | with x, y != F, the outer loop keeps that invariant to the end of the sprite |
| SpriteSpec.DrawToggles | chip8.c:186-204 | with x, y != F, if every set bit lands on the display, Dxyn toggles exactly the cells under set bits, each once; VF ends as the prior value of the last toggled cell, or is unchanged if none |
| SpriteSpec.ColumnsInRange | chip8.c:191-200 | with x, y != F, a row that draws without fault has every set bit on the display |
| SpriteSpec.RowsInRange | chip8.c:188-201 | with x, y != F, a sprite that draws without fault lies in memory and has every set bit on the display |
| SpriteSpec.DrawSucceedsIff | chip8.c:186-204 | with x, y != F, Dxyn faults exactly when a sprite byte is beyond memory or a set bit lands beyond the last display cell |
| SpriteSpec.DrawTwiceRestores | chip8.c:186-204 | with x, y != F, on a 0/1 display, for a sprite that lies in memory and whose set bits all land on the display, drawing the same sprite twice restores the display; the second collision flag is the complement of the cell under the last set bit |
| Engine.Epilogue | chip8.c:286-296 | each timer counts down by one only when it is positive; `play_beep` is raised exactly when the sound timer was 1 and is never cleared; pc advances by 2 modulo 65536; nothing else changes |
| Engine.Blank | chip8.c:84 | the cleared display has DISPLAY_SIZE cells, all 0 |
| Engine.SkipIf | chip8.c:106-109 | a taken skip advances pc by 2 modulo 65536 and changes nothing else; a skip not taken changes nothing |
| Engine.ExecuteMisc | chip8.c:224-280 | the Fx switch never ends fatally and never moves pc; only Fx15 and Fx18 touch the timers; the display is unchanged |
| Engine.Execute | chip8.c:77-284 | the switch keeps the machine well-formed and a 0/1 display 0/1; it never touches `play_beep`; only Fx15 and Fx18 change a timer; only 00EE and the skips move pc before the epilogue; a fatal end reports the opcode |
| Engine.Step | chip8.c:63-302 | a step keeps the machine well-formed and a 0/1 display 0/1; when pc+1 is beyond memory the step is an out-of-range memory access; a fatal end reports the fetched opcode |
| StepProperties.FatalIffUnknown | chip8.c:77-301 | a step ends fatally exactly for 0nnn other than 00E0/00EE, 8xyN with N in {8..D, F}, and ExNN other than Ex9E/ExA1 |
| StepProperties.UnknownMiscOnlyTicks | chip8.c:224-296 | an Fxnn with an unlisted nn does nothing but the epilogue |
| StepProperties.Countdown | chip8.c:286-294 | after k epilogues each timer is max(0, t - k), and the beep flag is set if the sound timer was between 1 and k |
| StepProperties.AdvancedTicks | chip8.c:286-296 | every completed instruction other than Fx15/Fx18 counts the timers down once and raises the beep flag when the sound timer leaves 1; one that does not move pc itself advances it by 2 mod 65536 |
| StepProperties.TimerLoads | chip8.c:245-294 | Fx15/Fx18 load V[x] into the timer, and the same step's epilogue decrements it, so V[x] == 1 in Fx18 requests a beep at once; everything else is as the epilogue leaves it |
| StepProperties.TimerRead | chip8.c:227-229 | Fx07 copies the delay timer into V[x] before it counts down |
| StepProperties.EarlyReturns | chip8.c:97-242 | a step skips the epilogue exactly for 1nnn, a valid 2nnn, Bnnn and Fx0A with no key down; Fx0A without a key leaves the machine unchanged |
| StepProperties.Jumps | chip8.c:97-180 | 1nnn sets pc to nnn and Bnnn to V0 + nnn, with nothing else changed |
| StepProperties.CallThenReturn | chip8.c:88-104 | 2nnn pushes pc and jumps to nnn; a later 00EE on that stack pops back to the call's address plus 2 and restores sp; the call changes only pc, sp and the stack, and the return only pc, sp and the epilogue's fields |
| StepProperties.StackFaults | chip8.c:89-102 | a push past slot 15, or a return with sp outside the stack, is an out-of-range stack access |
| StepProperties.Skips | chip8.c:106-217 | 3xnn, 4xnn, 5xy0, 9xy0, Ex9E and ExA1 advance pc by 4 when their condition holds and by 2 otherwise |
| StepProperties.KeyTestFault | chip8.c:209-217 | Ex9E/ExA1 with V[x] >= 16 read outside the key latches |
| StepProperties.ClearScreen | chip8.c:83-86 | 00E0 sets every display cell to 0 and requests a redraw |
| StepProperties.Immediates | chip8.c:121-127 | 6xnn loads nn into V[x] and 7xnn adds nn modulo 256; the other registers are unchanged |
| StepProperties.ArithStep | chip8.c:129-167 | a defined 8xyN replaces the registers by `Alu.Arith`'s and then runs the epilogue |
| StepProperties.RandomMask | chip8.c:182-184 | Cxnn stores (rand() % 0xFF) & nn in V[x]: the stored value never exceeds nn, each of its binary digits is 1 exactly where both nn and the random operand have a 1, and nothing but V[x] and the epilogue changes |
| StepProperties.IndexMoves | chip8.c:174-260 | Annn sets the index to nnn; Fx29 sets it to 5*V[x]; Fx1E adds V[x] modulo 65536 and VF is 1 exactly when the sum exceeds 0xFFF, and with x == F the fresh flag is what gets added; apart from the index and VF, all three leave the machine as the epilogue does |
| StepProperties.FontGlyph | chip8.c:258-260 | after Fx29 with an intact font and V[x] < 16, the 5 bytes at the index are the glyph of V[x] |
| StepProperties.BcdStep | chip8.c:262-266 | Fx33 completes exactly when index+2 is inside memory, and then writes V[x]'s three decimal digits |
| StepProperties.SaveStep | chip8.c:268-272 | Fx55 completes exactly when index+x is inside memory; it stores V0..Vx and advances the index by x+1 |
| StepProperties.LoadStep | chip8.c:274-278 | Fx65 completes exactly when index+x is inside memory; it loads V0..Vx and advances the index by x+1 |
| StepProperties.KeyWait | chip8.c:231-243 | Fx0A with a key down stores the highest pressed key index in V[x] and completes normally |
| StepProperties.DrawStep | chip8.c:186-296 | with x, y != F, Dxyn completes exactly when the sprite is drawable; the covered cells are then toggled, VF is set from the last toggled cell, and a redraw is requested |

## Left out

- SDL (window, renderer, audio, event loop), `main.c`, and the 60 Hz frame pacing: I/O outside the core.
- File reading in `load_game` (`fopen`/`ftell`/`fread`): `Boot.LoadGame` takes the file's bytes as a parameter. The C code does not check a failed `fopen` and truncates nothing. Those paths depend on the file system.
- `srand(time(NULL))` and `rand()`: the value `rand()` returns is the parameter `rnd` of `Engine.Step`.
- `printf` and `exit` on an unknown opcode or an oversized game: they become the `Fatal` outcome and `Boot.LoadError`.
- The uninitialised part of the `malloc`ed machine: `Boot.Create` takes it as the parameter `junk`.
- Out-of-bounds array accesses are C undefined behaviour. The model reports them as `Undefined(fault)` and does not say what memory they would corrupt.
- Three behaviours of the code are modelled as written:
  - nothing prevents writes to addresses below 512;
  - Fx0A keeps the highest pressed key, not the first;
  - a Dxyn sprite is neither clipped nor wrapped: a set bit beyond the last cell is an out-of-range access.
- `need_draw` and `play_beep` are `int` in C. Only 0 and 1 are ever stored in them, so they are `bool` here.
- SpriteSpec.DrawToggles: proved only when neither coordinate register is VF. With x or y equal to F, the collision flag written mid-draw moves the rest of the sprite. That case is covered only by the frame and 0/1 properties of `Sprite.DrawSprite`.
- SpriteSpec.DrawSucceedsIff: proved only when neither coordinate register is VF, for the same reason.
- SpriteSpec.DrawTwiceRestores: proved only when neither coordinate register is VF, on a 0/1 display, for a sprite that lies in memory with every set bit on the display. With x or y equal to F the claim is false: the flag written by the second draw moves the rest of that draw, so cells set by the first draw can stay set.
- SpriteSpec.Columns: the inner-loop invariant is proved only when neither coordinate register is VF, for the same reason.
- SpriteSpec.Rows: the outer-loop invariant is proved only when neither coordinate register is VF, for the same reason.
- SpriteSpec.ColumnsInRange: proved only when neither coordinate register is VF, for the same reason.
- SpriteSpec.RowsInRange: proved only when neither coordinate register is VF, for the same reason.
- StepProperties.DrawStep: proved only when neither coordinate register is VF, for the same reason.
- Alu.AddWithCarry: stated for x != F and y != F only. `Alu.FlagAsDestination` states x == F, `Alu.FlagAsSource` states y == F, and `Alu.FlagAsBoth` states x == y == F.
- Alu.SubtractWithFlag: stated for x != F and y != F only. The aliased cases are in the same three lemmas.
- Alu.ReverseSubtractWithFlag: stated for x != F and y != F only. `Alu.FlagAsDestination` states x == F, `Alu.ReverseFlagAsSource` states y == F, and `Alu.FlagAsBoth` states x == y == F.
- Alu.ShiftsKeepOutBit: stated for x != F only. `Alu.ShiftFlagRegister` states x == F.
- The top-level `default:` of the opcode switch is unreachable, because every top nibble has a case. The model's fallback arm is dead for the same reason.

=== FILE: alu.dfy ===
/**
 The register arithmetic of the 0x8 group (`8xyN`) and of `7xnn`.

 Each flag-setting case of the source is two assignments in a fixed order:
 the flag register V[0xF] is written first, then V[x] is computed from the
 registers as they are after that write. `Arith` keeps that order, so when
 `y` or `x` is 0xF the fresh flag is an operand or is overwritten.
 */
module Alu {
  import opened Base
  import opened State
  import opened Bits

  /** The `8xyN` instructions the inner switch knows. */
  predicate KnownArith(n: nibble) {
    n <= 7 || n == 0xE
  }

  /** The register file after `8xyN`, or `None` for the `default:` of the
      inner switch (an unknown opcode). */
  function Arith(v: seq<byte>, x: nibble, y: nibble, n: nibble): (r: Option<seq<byte>>)
    requires |v| == REGISTERS
    ensures r.Some? <==> KnownArith(n)
    ensures r.Some? ==> |r.value| == REGISTERS
    ensures r.Some? ==> forall i :: 0 <= i < REGISTERS && i != x && i != VF ==> r.value[i] == v[i]
    ensures r.Some? && n <= 3 ==> forall i :: 0 <= i < REGISTERS && i != x ==> r.value[i] == v[i]
    ensures r.Some? && n == 0 ==> r.value[x] == v[y]
  {
    match n
    case 0x0 => Some(v[x := v[y]])
    case 0x1 => ByteOps(v[x], v[y]); Some(v[x := Or(v[x], v[y])])
    case 0x2 => ByteOps(v[x], v[y]); Some(v[x := And(v[x], v[y])])
    case 0x3 => ByteOps(v[x], v[y]); Some(v[x := Xor(v[x], v[y])])
    case 0x4 =>
      var f := v[VF := if v[y] as int + v[x] > 255 then 1 else 0];
      Some(f[x := ToByte(f[x] as int + f[y])])
    case 0x5 =>
      var f := v[VF := if v[x] > v[y] then 1 else 0];
      Some(f[x := ToByte(f[x] as int - f[y])])
    case 0x6 =>
      var f := v[VF := v[x] % 2];
      Some(f[x := f[x] / 2])
    case 0x7 =>
      var f := v[VF := if v[y] > v[x] then 1 else 0];
      Some(f[x := ToByte(f[y] as int - f[x])])
    case 0xE =>
      var f := v[VF := v[x] / 0x80];
      Some(f[x := ToByte(f[x] as int * 2)])
    case _ => None
  }

  /** 8xy4 with ordinary registers: V[F] is the carry out of the 8-bit sum,
      so sum and flag together hold the exact mathematical sum. */
  lemma AddWithCarry(v: seq<byte>, x: nibble, y: nibble)
    requires |v| == REGISTERS && x != VF && y != VF
    ensures var r := Arith(v, x, y, 0x4).value;
      && r[x] == (v[x] as int + v[y]) % 0x100
      && (r[VF] == 1 <==> v[x] as int + v[y] > 255)
      && r[VF] <= 1
      && r[x] as int + 0x100 * (r[VF] as int) == v[x] as int + v[y]
  {
  }

  /** 8xy5 with ordinary registers: V[x] - V[y] modulo 256, and V[F] = 1
      exactly when V[x] is strictly greater (so an equal pair gives 0). */
  lemma SubtractWithFlag(v: seq<byte>, x: nibble, y: nibble)
    requires |v| == REGISTERS && x != VF && y != VF
    ensures var r := Arith(v, x, y, 0x5).value;
      && r[x] == (v[x] as int - v[y]) % 0x100
      && (r[VF] == 1 <==> v[x] > v[y])
      && (r[VF] == 0 <==> v[x] <= v[y])
      && (v[x] > v[y] ==> r[x] == v[x] as int - v[y])
  {
  }

  /** 8xy7 with ordinary registers: the reversed subtraction. */
  lemma ReverseSubtractWithFlag(v: seq<byte>, x: nibble, y: nibble)
    requires |v| == REGISTERS && x != VF && y != VF
    ensures var r := Arith(v, x, y, 0x7).value;
      && r[x] == (v[y] as int - v[x]) % 0x100
      && (r[VF] == 1 <==> v[y] > v[x])
      && (r[VF] == 0 <==> v[y] <= v[x])
      && (v[y] > v[x] ==> r[x] == v[y] as int - v[x])
  {
  }

  /** 8xy6 and 8xyE with an ordinary register: the bit shifted out lands in
      V[F], and shifted value and flag together recover the old register. */
  lemma ShiftsKeepOutBit(v: seq<byte>, x: nibble, y: nibble)
    requires |v| == REGISTERS && x != VF
    ensures var r := Arith(v, x, y, 0x6).value;
      r[VF] <= 1 && 2 * (r[x] as int) + r[VF] == v[x]
    ensures var r := Arith(v, x, y, 0xE).value;
      r[VF] <= 1 && r[x] % 2 == 0 && r[x] / 2 + 0x80 * (r[VF] as int) == v[x]
  {
  }

  /** When V[F] is the destination, the flag written first is what the
      second assignment reads back as V[x]: the old register value is lost
      and the result is computed from the flag. */
  lemma FlagAsDestination(v: seq<byte>, y: nibble)
    requires |v| == REGISTERS && y != VF
    ensures var c: int := if v[VF] as int + v[y] > 255 then 1 else 0;
      Arith(v, VF, y, 0x4).value[VF] == (c + v[y]) % 0x100
    ensures var c: int := if v[VF] > v[y] then 1 else 0;
      Arith(v, VF, y, 0x5).value[VF] == (c - v[y]) % 0x100
    ensures var c: int := if v[y] > v[VF] then 1 else 0;
      Arith(v, VF, y, 0x7).value[VF] == (v[y] - c) % 0x100
  {
  }

  /** When V[F] is the source operand, the flag just written is what is added
      or subtracted, not the register's old value. */
  lemma FlagAsSource(v: seq<byte>, x: nibble)
    requires |v| == REGISTERS && x != VF
    ensures var c: int := if v[VF] as int + v[x] > 255 then 1 else 0;
      var r := Arith(v, x, VF, 0x4).value;
      r[x] == (v[x] + c) % 0x100 && r[VF] == c
    ensures var c: int := if v[x] > v[VF] then 1 else 0;
      var r := Arith(v, x, VF, 0x5).value;
      r[x] == (v[x] - c) % 0x100 && r[VF] == c
  {
  }

  /** 8xy1, 8xy2 and 8xy3 combine V[x] and V[y] digit by digit with C's
      `|`, `&` and `^`. */
  lemma LogicOps(v: seq<byte>, x: nibble, y: nibble)
    requires |v| == REGISTERS
    ensures forall k: nat :: Bit(Arith(v, x, y, 0x1).value[x], k) <==> Bit(v[x], k) || Bit(v[y], k)
    ensures forall k: nat :: Bit(Arith(v, x, y, 0x2).value[x], k) <==> Bit(v[x], k) && Bit(v[y], k)
    ensures forall k: nat :: Bit(Arith(v, x, y, 0x3).value[x], k) <==> Bit(v[x], k) != Bit(v[y], k)
  {
    forall k: nat
      ensures Bit(Or(v[x], v[y]), k) <==> Bit(v[x], k) || Bit(v[y], k)
      ensures Bit(And(v[x], v[y]), k) <==> Bit(v[x], k) && Bit(v[y], k)
      ensures Bit(Xor(v[x], v[y]), k) <==> Bit(v[x], k) != Bit(v[y], k)
    {
      OrBits(v[x], v[y], k);
      AndBits(v[x], v[y], k);
      XorBits(v[x], v[y], k);
    }
  }

  /** With a register as both operands, 8xx1 and 8xx2 change nothing and
      8xx3 clears it. */
  lemma LogicOnItself(v: seq<byte>, x: nibble)
    requires |v| == REGISTERS
    ensures Arith(v, x, x, 0x1).value == v
    ensures Arith(v, x, x, 0x2).value == v
    ensures Arith(v, x, x, 0x3).value == v[x := 0]
  {
    SelfOps(v[x]);
  }

  /** 8xF7 with x != F: the freshly written flag is the minuend. */
  lemma ReverseFlagAsSource(v: seq<byte>, x: nibble)
    requires |v| == REGISTERS && x != VF
    ensures var c: int := if v[VF] > v[x] then 1 else 0;
      var r := Arith(v, x, VF, 0x7).value;
      r[x] == (c - v[x]) % 0x100 && r[VF] == c
  {
  }

  /** 8Fy6 and 8FyE: the shifted-out bit is written to V[F] and then shifted
      itself, so 8Fy6 always leaves 0 and 8FyE leaves twice the old top bit. */
  lemma ShiftFlagRegister(v: seq<byte>, y: nibble)
    requires |v| == REGISTERS
    ensures Arith(v, VF, y, 0x6).value[VF] == 0
    ensures Arith(v, VF, y, 0xE).value[VF] == 2 * (v[VF] / 0x80)
  {
  }

  /** 8FF4, 8FF5 and 8FF7: V[F] is destination and source at once, so each
      reads back the flag it has just written. */
  lemma FlagAsBoth(v: seq<byte>)
    requires |v| == REGISTERS
    ensures Arith(v, VF, VF, 0x4).value[VF] == if 2 * (v[VF] as int) > 255 then 2 else 0
    ensures Arith(v, VF, VF, 0x5).value[VF] == 0
    ensures Arith(v, VF, VF, 0x7).value[VF] == 0
  {
  }

  /** 7xnn: the byte sum wraps and the flag register is left alone. */
  function AddImmediate(v: seq<byte>, x: nibble, nn: byte): (r: seq<byte>)
    requires |v| == REGISTERS
    ensures |r| == REGISTERS
    ensures (r[x] as int - v[x] - nn) % 0x100 == 0
    ensures v[x] as int + nn < 0x100 ==> r[x] == v[x] as int + nn
    ensures forall i :: 0 <= i < REGISTERS && i != x ==> r[i] == v[i]
  {
    v[x := ToByte(v[x] as int + nn)]
  }

  /** Two `7xnn` in a row equal one with the sum of the immediates, modulo 256. */
  lemma AddImmediateTwice(v: seq<byte>, x: nibble, a: byte, b: byte)
    requires |v| == REGISTERS
    ensures AddImmediate(AddImmediate(v, x, a), x, b)[x] == (v[x] as int + a + b) % 0x100
  {
  }
}

=== FILE: base.dfy ===
/**
 The C integer types the interpreter works with, with their wrap-around
 written out, and the small result wrappers used across the model.

 - `byte` is `unsigned char` (registers, key latches, timers, memory cells);
 - `word` is `unsigned short` (program counter, index, stack pointer, stack slots);
 - `nibble` is a 4-bit opcode field.
 */
module Base {

  type byte = b: int | 0 <= b < 0x100
  type word = w: int | 0 <= w < 0x1_0000
  type nibble = n: int | 0 <= n < 0x10

  datatype Option<+T> = None | Some(value: T)

  datatype Result<+T, +E> = Ok(value: T) | Err(error: E)

  /** Storing an int into an `unsigned char`: C reduces it modulo 2^8. */
  function ToByte(i: int): (b: byte)
    ensures 0 <= i < 0x100 ==> b == i
    ensures (i - b) % 0x100 == 0
  {
    i % 0x100
  }

  /** Storing an int into an `unsigned short`: C reduces it modulo 2^16. */
  function ToWord(i: int): (w: word)
    ensures 0 <= i < 0x1_0000 ==> w == i
    ensures (i - w) % 0x1_0000 == 0
  {
    i % 0x1_0000
  }
}

=== FILE: bits.dfy ===
/**
 C's bitwise operators on unsigned values, defined one binary digit at a
 time on naturals, with each operator characterised digit by digit.

 `Bit(a, k)` is binary digit `k` of `a`. `And`, `Or` and `Xor` are C's `&`,
 `|` and `^`; `Pow2(k)` is `1 << k`.
 */
module Bits {
  import opened Base

  function Pow2(k: nat): (p: nat)
    ensures p >= 1
  {
    if k == 0 then 1 else 2 * Pow2(k - 1)
  }

  /** Binary digit `k` of `a` is 1, i.e. `(a >> k) & 1`. */
  predicate Bit(a: nat, k: nat)
    decreases k, a  // second component only for proof performance
  {
    if k == 0 then a % 2 == 1 else Bit(a / 2, k - 1)
  }

  /** C's `a & b`. */
  function And(a: nat, b: nat): (r: nat)
    ensures r <= a && r <= b
    decreases a
  {
    if a == 0 || b == 0 then 0
    else 2 * And(a / 2, b / 2) + (if a % 2 == 1 && b % 2 == 1 then 1 else 0)
  }

  /** C's `a | b`. */
  function Or(a: nat, b: nat): (r: nat)
    ensures a <= r && b <= r && r <= a + b
    decreases a
  {
    if a == 0 then b
    else if b == 0 then a
    else 2 * Or(a / 2, b / 2) + (if a % 2 == 1 || b % 2 == 1 then 1 else 0)
  }

  /** C's `a ^ b`. */
  function Xor(a: nat, b: nat): (r: nat)
    ensures r <= a + b
    decreases a
  {
    if a == 0 then b
    else if b == 0 then a
    else 2 * Xor(a / 2, b / 2) + (if (a % 2 == 1) != (b % 2 == 1) then 1 else 0)
  }

  /** Every digit of 0 is 0. */
  lemma {:induction false} ZeroBits(k: nat)
    ensures !Bit(0, k)
    decreases k
  {
    if k > 0 {
      ZeroBits(k - 1);
    }
  }

  lemma {:induction false} AndBits(a: nat, b: nat, k: nat)
    ensures Bit(And(a, b), k) <==> Bit(a, k) && Bit(b, k)
    decreases k
  {
    if k > 0 {
      ZeroBits(k);
      if a != 0 && b != 0 {
        assert And(a, b) / 2 == And(a / 2, b / 2);
        AndBits(a / 2, b / 2, k - 1);
      }
    }
  }

  lemma {:induction false} OrBits(a: nat, b: nat, k: nat)
    ensures Bit(Or(a, b), k) <==> Bit(a, k) || Bit(b, k)
    decreases k
  {
    if k > 0 {
      ZeroBits(k);
      if a != 0 && b != 0 {
        assert Or(a, b) / 2 == Or(a / 2, b / 2);
        OrBits(a / 2, b / 2, k - 1);
      }
    }
  }

  lemma {:induction false} XorBits(a: nat, b: nat, k: nat)
    ensures Bit(Xor(a, b), k) <==> Bit(a, k) != Bit(b, k)
    decreases k
  {
    if k > 0 {
      ZeroBits(k);
      if a != 0 && b != 0 {
        assert Xor(a, b) / 2 == Xor(a / 2, b / 2);
        XorBits(a / 2, b / 2, k - 1);
      }
    }
  }

  /** The operators never carry out of the width of their operands. */
  lemma {:induction false} Bounded(a: nat, b: nat, k: nat)
    requires a < Pow2(k) && b < Pow2(k)
    ensures And(a, b) < Pow2(k) && Or(a, b) < Pow2(k) && Xor(a, b) < Pow2(k)
    decreases k
  {
    if k > 0 && a != 0 && b != 0 {
      Bounded(a / 2, b / 2, k - 1);
    }
  }

  /** On two bytes every operator yields a byte. */
  lemma ByteOps(a: byte, b: byte)
    ensures And(a, b) < 0x100 && Or(a, b) < 0x100 && Xor(a, b) < 0x100
  {
    assert Pow2(8) == 0x100;
    Bounded(a, b, 8);
  }

  /** `a & (1 << k)` is nonzero exactly when digit `k` of `a` is 1. */
  lemma {:induction false} SingleBit(a: nat, k: nat)
    ensures And(a, Pow2(k)) != 0 <==> Bit(a, k)
    decreases k
  {
    ZeroBits(k);
    if k > 0 && a != 0 {
      assert Pow2(k) / 2 == Pow2(k - 1) && Pow2(k) % 2 == 0;
      assert And(a, Pow2(k)) == 2 * And(a / 2, Pow2(k - 1));
      SingleBit(a / 2, k - 1);
    }
  }

  /** `0x80 >> col` is the single digit `7 - col`. */
  lemma ShiftedMask(col: nat)
    requires col < 8
    ensures 0x80 / Pow2(col) == Pow2(7 - col)
  {
    assert Pow2(7) == 0x80;
    if col == 0 {
    } else if col == 1 {
      assert Pow2(1) == 2 && Pow2(6) == 0x40;
    } else if col == 2 {
      assert Pow2(2) == 4 && Pow2(5) == 0x20;
    } else if col == 3 {
      assert Pow2(3) == 8 && Pow2(4) == 0x10;
    } else if col == 4 {
      assert Pow2(4) == 0x10 && Pow2(3) == 8;
    } else if col == 5 {
      assert Pow2(5) == 0x20 && Pow2(2) == 4;
    } else if col == 6 {
      assert Pow2(6) == 0x40 && Pow2(1) == 2;
    } else {
      assert Pow2(7) == 0x80 && Pow2(0) == 1;
    }
  }

  /** `a | a == a`, `a & a == a` and `a ^ a == 0`. */
  lemma {:induction false} SelfOps(a: nat)
    ensures Or(a, a) == a && And(a, a) == a && Xor(a, a) == 0
    decreases a
  {
    if a != 0 {
      SelfOps(a / 2);
    }
  }
}

=== FILE: block.dfy ===
/**
 The memory-addressing instructions of the 0xF group: `Fx33` stores the
 decimal digits of a register, `Fx55` saves registers V[0..x] to memory and
 `Fx65` loads them back. Addresses are `index + i` computed in `int`, so an
 address past the last memory cell is a fault, never a wrap-around.
 */
module Block {
  import opened Base
  import opened State

  /** Fx33: hundreds, tens and ones of `value` at `addr`, `addr + 1`, `addr + 2`. */
  function StoreBcd(mem: seq<byte>, addr: nat, value: byte): (r: Result<seq<byte>, Fault>)
    ensures r.Ok? <==> addr + 2 < |mem|
    ensures r.Ok? ==> |r.value| == |mem|
    ensures r.Ok? ==> r.value[addr] < 10 && r.value[addr + 1] < 10 && r.value[addr + 2] < 10
    ensures r.Ok? ==> 100 * (r.value[addr] as int) + 10 * (r.value[addr + 1] as int) + r.value[addr + 2] == value
    ensures r.Ok? ==> forall j :: 0 <= j < |mem| && !(addr <= j <= addr + 2) ==> r.value[j] == mem[j]
  {
    if addr + 2 >= |mem| then Err(MemoryOutOfRange(if addr < |mem| then |mem| else addr))
    else Ok(mem[addr := value / 100][addr + 1 := (value / 10) % 10][addr + 2 := (value % 100) % 10])
  }

  /** Fx55, the loop `for (i = 0; i <= last; i++) memory[addr + i] = v[i]`
      from iteration `i` on. */
  function SaveRegisters(mem: seq<byte>, v: seq<byte>, addr: nat, last: nibble, i: nat): (r: Result<seq<byte>, Fault>)
    requires |v| == REGISTERS && i <= last + 1
    ensures r.Ok? <==> (i <= last ==> addr + last < |mem|)
    ensures r.Ok? ==> |r.value| == |mem|
    ensures r.Ok? ==> forall j :: 0 <= j < |mem| ==>
      r.value[j] == if addr + i <= j <= addr + last then v[j - addr] else mem[j]
    decreases last + 1 - i
  {
    if i > last then Ok(mem)
    else if addr + i >= |mem| then Err(MemoryOutOfRange(addr + i))
    else SaveRegisters(mem[addr + i := v[i]], v, addr, last, i + 1)
  }

  /** Fx65, the loop `for (i = 0; i <= last; i++) v[i] = memory[addr + i]`
      from iteration `i` on. */
  function LoadRegisters(mem: seq<byte>, v: seq<byte>, addr: nat, last: nibble, i: nat): (r: Result<seq<byte>, Fault>)
    requires |v| == REGISTERS && i <= last + 1
    ensures r.Ok? <==> (i <= last ==> addr + last < |mem|)
    ensures r.Ok? ==> |r.value| == REGISTERS
    ensures r.Ok? ==> forall j :: 0 <= j < REGISTERS ==>
      r.value[j] == if i <= j <= last then mem[addr + j] else v[j]
    decreases last + 1 - i
  {
    if i > last then Ok(v)
    else if addr + i >= |mem| then Err(MemoryOutOfRange(addr + i))
    else LoadRegisters(mem, v[i := mem[addr + i]], addr, last, i + 1)
  }

  /** Fx55 followed by Fx65 from the same address gives back V[0..x] and
      leaves the registers above x as they were before the load. */
  lemma {:induction false} SaveThenLoad(mem: seq<byte>, v: seq<byte>, w: seq<byte>, addr: nat, last: nibble)
    requires |v| == REGISTERS && |w| == REGISTERS
    requires addr + last < |mem|
    ensures SaveRegisters(mem, v, addr, last, 0).Ok?
    ensures LoadRegisters(SaveRegisters(mem, v, addr, last, 0).value, w, addr, last, 0).Ok?
    ensures var loaded := LoadRegisters(SaveRegisters(mem, v, addr, last, 0).value, w, addr, last, 0).value;
      (forall j :: 0 <= j <= last ==> loaded[j] == v[j])
      && (forall j :: last < j < REGISTERS ==> loaded[j] == w[j])
  {
    var saved := SaveRegisters(mem, v, addr, last, 0).value;
    var loaded := LoadRegisters(saved, w, addr, last, 0).value;
    forall j | 0 <= j <= last
      ensures loaded[j] == v[j]
    {
      assert loaded[j] == saved[addr + j];
    }
  }
}

=== FILE: boot.dfy ===
/**
 Setting up a machine: `create_chip8_emulator` and the pure part of
 `load_game`.

 The source allocates the machine with `malloc` and initialises only three
 things: the program counter, `need_draw` and the 80-byte font at the bottom
 of memory. Everything else holds whatever the allocation held, which is the
 `junk` parameter here.
 */
module Boot {
  import opened Base
  import opened State
  import opened Decode

  /** The 16 hexadecimal glyphs, SPRITE_SIZE bytes each; glyph g starts at 5 * g. */
  const FONT: seq<byte> := [
    0xF0, 0x90, 0x90, 0x90, 0xF0, // 0
    0x20, 0x60, 0x20, 0x20, 0x70, // 1
    0xF0, 0x10, 0xF0, 0x80, 0xF0, // 2
    0xF0, 0x10, 0xF0, 0x10, 0xF0, // 3
    0x90, 0x90, 0xF0, 0x10, 0x10, // 4
    0xF0, 0x80, 0xF0, 0x10, 0xF0, // 5
    0xF0, 0x80, 0xF0, 0x90, 0xF0, // 6
    0xF0, 0x10, 0x20, 0x40, 0x40, // 7
    0xF0, 0x90, 0xF0, 0x90, 0xF0, // 8
    0xF0, 0x90, 0xF0, 0x10, 0xF0, // 9
    0xF0, 0x90, 0xF0, 0x90, 0x90, // A
    0xE0, 0x90, 0xE0, 0x90, 0xE0, // B
    0xF0, 0x80, 0x80, 0x80, 0xF0, // C
    0xE0, 0x90, 0x90, 0x90, 0xE0, // D
    0xF0, 0x80, 0xF0, 0x80, 0xF0, // E
    0xF0, 0x80, 0xF0, 0x80, 0x80  // F
  ]

  const FONT_SIZE := 16 * SPRITE_SIZE

  /** `create_chip8_emulator` over the uninitialised allocation `junk`: the
      program counter starts at PROGRAM_START_POS, a redraw is requested and
      the font occupies memory[0..80); nothing else is written. */
  function Create(junk: Machine): (m: Machine)
    requires Wf(junk)
    ensures Wf(m)
    ensures m.pc == PROGRAM_START_POS
    ensures m.needDraw
    ensures |FONT| == FONT_SIZE && m.memory[..FONT_SIZE] == FONT
    ensures m.memory[FONT_SIZE..] == junk.memory[FONT_SIZE..]
    ensures m == junk.(memory := m.memory, pc := m.pc, needDraw := m.needDraw)
  {
    junk.(pc := PROGRAM_START_POS, needDraw := true, memory := FONT + junk.memory[FONT_SIZE..])
  }

  /** Why loading can fail: the image does not fit above PROGRAM_START_POS. */
  datatype LoadError = ProgramTooLarge(size: nat)

  /** `load_game` without the file: an image larger than
      MEMORY_SIZE - PROGRAM_START_POS bytes is refused, otherwise it is copied
      verbatim to memory[PROGRAM_START_POS..] and nothing else changes. */
  function LoadGame(m: Machine, image: seq<byte>): (r: Result<Machine, LoadError>)
    requires Wf(m)
    ensures r.Ok? <==> |image| <= MEMORY_SIZE - PROGRAM_START_POS
    ensures r.Err? ==> r.error == ProgramTooLarge(|image|)
    ensures r.Ok? ==> Wf(r.value) && r.value == m.(memory := r.value.memory)
    ensures r.Ok? ==> r.value.memory[PROGRAM_START_POS .. PROGRAM_START_POS + |image|] == image
    ensures r.Ok? ==> r.value.memory[..PROGRAM_START_POS] == m.memory[..PROGRAM_START_POS]
    ensures r.Ok? ==> r.value.memory[PROGRAM_START_POS + |image|..] == m.memory[PROGRAM_START_POS + |image|..]
  {
    if |image| > MEMORY_SIZE - PROGRAM_START_POS then Err(ProgramTooLarge(|image|))
    else
      var mem := m.memory[..PROGRAM_START_POS] + image + m.memory[PROGRAM_START_POS + |image|..];
      assert mem[PROGRAM_START_POS .. PROGRAM_START_POS + |image|] == image;
      Ok(m.(memory := mem))
  }

  /** Starting a game: on a new machine, loading an image that fits keeps
      the font, leaves pc at the image's first byte, and the first opcode
      fetched is the image's first two bytes, high byte first. */
  lemma CreateThenLoad(junk: Machine, image: seq<byte>)
    requires Wf(junk) && 2 <= |image| <= MEMORY_SIZE - PROGRAM_START_POS
    ensures LoadGame(Create(junk), image).Ok?
    ensures var m := LoadGame(Create(junk), image).value;
      && m.pc == PROGRAM_START_POS && m.needDraw
      && m.memory[..FONT_SIZE] == FONT
      && m.pc + 1 < MEMORY_SIZE
      && Fetch(m) == (image[0] as int) * 0x100 + image[1]
  {
    var m := LoadGame(Create(junk), image).value;
    assert m.memory[..FONT_SIZE] == Create(junk).memory[..PROGRAM_START_POS][..FONT_SIZE];
    assert m.memory[PROGRAM_START_POS] == image[0];
    assert m.memory[PROGRAM_START_POS + 1] == image[1];
  }
}

=== FILE: decode.dfy ===
/**
 Fetch and decode of `emulate`: the big-endian opcode at the program counter
 and the fixed fields every instruction family reads from it.
 */
module Decode {
  import opened Base
  import opened State

  /** The fields `emulate` slices out of an opcode; `group` is the top nibble
      that the outer switch dispatches on. */
  datatype Fields = Fields(group: nibble, x: nibble, y: nibble, n: nibble, nn: byte, nnn: word)

  /** The opcode at the program counter: `memory[pc] << 8 | memory[pc + 1]`. */
  function Fetch(m: Machine): (op: word)
    requires Wf(m)
    requires m.pc + 1 < MEMORY_SIZE
    ensures op / 0x100 == m.memory[m.pc]
    ensures op % 0x100 == m.memory[m.pc + 1]
  {
    (m.memory[m.pc] as int) * 0x100 + m.memory[m.pc + 1]
  }

  /** The masks `& 0xFFF`, `& 0xFF`, `& 0xF`, `(& 0x0F00) >> 8`, `(& 0x00F0) >> 4`
      and `& 0xF000`, written as arithmetic on a non-negative word. */
  function DecodeFields(op: word): (f: Fields)
    ensures op == f.group * 0x1000 + f.nnn
    ensures f.nnn == f.x * 0x100 + f.nn
    ensures f.nn == f.y * 0x10 + f.n
    ensures f.nnn < 0x1000
  {
    Fields(op / 0x1000, (op / 0x100) % 0x10, (op / 0x10) % 0x10, op % 0x10, op % 0x100, op % 0x1000)
  }

  /** Assembles an opcode from its four nibbles, most significant first. */
  function Encode(group: nibble, x: nibble, y: nibble, n: nibble): (op: word)
  {
    group * 0x1000 + x * 0x100 + y * 0x10 + n
  }

  /** Decoding recovers the nibbles an opcode was assembled from. */
  lemma DecodeEncode(group: nibble, x: nibble, y: nibble, n: nibble)
    ensures var f := DecodeFields(Encode(group, x, y, n));
      f.group == group && f.x == x && f.y == y && f.n == n
      && f.nn == y * 0x10 + n && f.nnn == x * 0x100 + y * 0x10 + n
  {
    var f := DecodeFields(Encode(group, x, y, n));
    assert f.group * 0x1000 + f.x * 0x100 + f.y * 0x10 + f.n == group * 0x1000 + x * 0x100 + y * 0x10 + n;
    DigitsUnique(f.group, f.x, f.y, f.n, group, x, y, n);
  }

  /** Every opcode is the encoding of its own decoded nibbles. */
  lemma EncodeDecode(op: word)
    ensures var f := DecodeFields(op); Encode(f.group, f.x, f.y, f.n) == op
  {
  }

  /** Base-16 digits are unique. */
  lemma DigitsUnique(a: nibble, b: nibble, c: nibble, d: nibble, a': nibble, b': nibble, c': nibble, d': nibble)
    requires a * 0x1000 + b * 0x100 + c * 0x10 + d == a' * 0x1000 + b' * 0x100 + c' * 0x10 + d'
    ensures a == a' && b == b' && c == c' && d == d'
  {
    assert d == d' by {
      assert (a * 0x100 + b * 0x10 + c) * 0x10 + d == (a' * 0x100 + b' * 0x10 + c') * 0x10 + d';
    }
    assert c == c' by {
      assert (a * 0x10 + b) * 0x10 + c == (a' * 0x10 + b') * 0x10 + c';
    }
    assert b == b' by {
      assert a * 0x10 + b == a' * 0x10 + b';
    }
  }
}

=== FILE: engine.dfy ===
/**
 `emulate`: one fetch-decode-execute step of the interpreter.

 `Execute` is the big switch on the top nibble of the opcode. Its result
 says how the step ends:
 - `Advanced(m)`: the instruction left the switch with `break`, and `m` is
   the state BEFORE the shared epilogue (timer countdown, pc += 2);
 - `NoEpilogue(m)`: the instruction returned early (1nnn, 2nnn, Bnnn, and
   Fx0A with no key down), `m` is final;
 - `Fatal(op)`: the `UNKNOWN_OP_CODE` exit, carrying the opcode;
 - `Undefined(f)`: an unchecked array access of the source would leave
   its array.
 `Step` fetches, executes, and applies the epilogue to `Advanced` results.
 The random number of Cxnn is the parameter `rnd`, the value `rand()`
 would have returned.
 */
module Engine {
  import opened Base
  import opened State
  import opened Bits
  import opened Decode
  import opened Alu
  import opened Sprite
  import opened Block
  import opened Keypad

  datatype Outcome =
    | Advanced(next: Machine)
    | NoEpilogue(next: Machine)
    | Fatal(opcode: word)
    | Undefined(fault: Fault)

  /** The tail shared by every instruction that does not return early: count
      both timers down towards zero, request a beep when the sound timer
      runs out from 1, and move to the next instruction. */
  function Epilogue(m: Machine): (r: Machine)
    ensures r == m.(delayTimer := r.delayTimer, soundTimer := r.soundTimer, playBeep := r.playBeep, pc := r.pc)
    ensures r.delayTimer == if m.delayTimer == 0 then 0 else m.delayTimer - 1
    ensures r.soundTimer == if m.soundTimer == 0 then 0 else m.soundTimer - 1
    ensures r.playBeep <==> m.playBeep || m.soundTimer == 1
    ensures r.pc == (m.pc + 2) % 0x1_0000
  {
    m.(delayTimer := if m.delayTimer > 0 then m.delayTimer - 1 else m.delayTimer,
       soundTimer := if m.soundTimer > 0 then m.soundTimer - 1 else m.soundTimer,
       playBeep := if m.soundTimer == 1 then true else m.playBeep,
       pc := ToWord(m.pc + 2))
  }

  /** The `pc += 2` of a taken skip; the epilogue adds the other 2. */
  function SkipIf(m: Machine, taken: bool): (r: Machine)
    ensures r == m.(pc := r.pc)
    ensures taken ==> r.pc == (m.pc + 2) % 0x1_0000
    ensures !taken ==> r == m
  {
    if taken then m.(pc := ToWord(m.pc + 2)) else m
  }

  /** The all-zero display of `00E0`. */
  function Blank(): (d: seq<byte>)
    ensures |d| == DISPLAY_SIZE && forall c :: 0 <= c < |d| ==> d[c] == 0
  {
    seq(DISPLAY_SIZE, _ => 0)
  }

  /** The inner switch of the 0xF group. It has no `default:`, so an
      unknown `Fxnn` changes nothing and still reaches the epilogue. */
  function ExecuteMisc(m: Machine, f: Fields): (r: Outcome)
    requires Wf(m) && f.group == 0xF
    ensures (r.Advanced? || r.NoEpilogue?) ==> Wf(r.next) && r.next.display == m.display
    ensures !r.Fatal?
    ensures r.Advanced? ==> r.next.pc == m.pc && r.next.playBeep == m.playBeep
    ensures r.Advanced? && f.nn != 0x15 ==> r.next.delayTimer == m.delayTimer
    ensures r.Advanced? && f.nn != 0x18 ==> r.next.soundTimer == m.soundTimer
  {
    var vx := m.v[f.x];
    match f.nn
    case 0x07 => Advanced(m.(v := m.v[f.x := m.delayTimer]))
    case 0x0A =>
      (match PressedKey(m.keys)
       case None => NoEpilogue(m)
       case Some(k) => Advanced(m.(v := m.v[f.x := k])))
    case 0x15 => Advanced(m.(delayTimer := vx))
    case 0x18 => Advanced(m.(soundTimer := vx))
    case 0x1E =>
      var v := m.v[VF := if m.index + vx > 0xFFF then 1 else 0];
      Advanced(m.(v := v, index := ToWord(m.index + v[f.x])))
    case 0x29 => Advanced(m.(index := ToWord(vx * SPRITE_SIZE)))
    case 0x33 =>
      (match StoreBcd(m.memory, m.index, vx)
       case Err(e) => Undefined(e)
       case Ok(mem) => Advanced(m.(memory := mem)))
    case 0x55 =>
      (match SaveRegisters(m.memory, m.v, m.index, f.x, 0)
       case Err(e) => Undefined(e)
       case Ok(mem) => Advanced(m.(memory := mem, index := ToWord(m.index + f.x + 1))))
    case 0x65 =>
      (match LoadRegisters(m.memory, m.v, m.index, f.x, 0)
       case Err(e) => Undefined(e)
       case Ok(v) => Advanced(m.(v := v, index := ToWord(m.index + f.x + 1))))
    case _ => Advanced(m)
  }

  /** The outer switch on the top nibble of `op`. */
  function Execute(m: Machine, op: word, rnd: nat): (r: Outcome)
    requires Wf(m)
    ensures (r.Advanced? || r.NoEpilogue?) ==> Wf(r.next)
    ensures (r.Advanced? || r.NoEpilogue?) && BinaryDisplay(m) ==> BinaryDisplay(r.next)
    ensures r.Fatal? ==> r.opcode == op
    ensures r.Advanced? ==> r.next.playBeep == m.playBeep
    ensures r.Advanced? && (DecodeFields(op).group != 0xF || DecodeFields(op).nn != 0x15) ==>
      r.next.delayTimer == m.delayTimer
    ensures r.Advanced? && (DecodeFields(op).group != 0xF || DecodeFields(op).nn != 0x18) ==>
      r.next.soundTimer == m.soundTimer
    ensures r.Advanced? && DecodeFields(op).group !in {0x0, 0x3, 0x4, 0x5, 0x9, 0xE} ==> r.next.pc == m.pc
    ensures r.Advanced? && DecodeFields(op).group == 0x0 && DecodeFields(op).nn != 0xEE ==> r.next.pc == m.pc
  {
    var f := DecodeFields(op);
    match f.group
    case 0x0 =>
      if f.nn == 0xE0 then Advanced(m.(display := Blank(), needDraw := true))
      else if f.nn == 0xEE then
        if m.sp >= STACK_SLOTS then Undefined(StackOutOfRange(m.sp))
        else Advanced(m.(pc := m.stack[m.sp], sp := ToWord(m.sp - 1)))
      else Fatal(op)
    case 0x1 => NoEpilogue(m.(pc := f.nnn))
    case 0x2 =>
      var sp := ToWord(m.sp + 1);
      if sp >= STACK_SLOTS then Undefined(StackOutOfRange(sp))
      else NoEpilogue(m.(stack := m.stack[sp := m.pc], sp := sp, pc := f.nnn))
    case 0x3 => Advanced(SkipIf(m, m.v[f.x] == f.nn))
    case 0x4 => Advanced(SkipIf(m, m.v[f.x] != f.nn))
    case 0x5 => Advanced(SkipIf(m, m.v[f.x] == m.v[f.y]))
    case 0x6 => Advanced(m.(v := m.v[f.x := f.nn]))
    case 0x7 => Advanced(m.(v := AddImmediate(m.v, f.x, f.nn)))
    case 0x8 =>
      (match Arith(m.v, f.x, f.y, f.n)
       case None => Fatal(op)
       case Some(v) => Advanced(m.(v := v)))
    case 0x9 => Advanced(SkipIf(m, m.v[f.x] != m.v[f.y]))
    case 0xA => Advanced(m.(index := f.nnn))
    case 0xB => NoEpilogue(m.(pc := ToWord(m.v[0] + f.nnn)))
    case 0xC => Advanced(m.(v := m.v[f.x := And(rnd % 0xFF, f.nn)]))
    case 0xD =>
      (match DrawSprite(m, f.x, f.y, f.n)
       case Err(e) => Undefined(e)
       case Ok(drawn) => Advanced(drawn))
    case 0xE =>
      if f.nn != 0x9E && f.nn != 0xA1 then Fatal(op)
      else if m.v[f.x] >= KEY_COUNT then Undefined(KeyOutOfRange(m.v[f.x]))
      else if f.nn == 0x9E then Advanced(SkipIf(m, m.keys[m.v[f.x]] == PRESSED))
      else Advanced(SkipIf(m, m.keys[m.v[f.x]] != PRESSED))
    case 0xF => ExecuteMisc(m, f)
    case _ => Fatal(op)
  }

  /** `emulate`: fetch the opcode at pc, execute it, and run the epilogue
      unless the instruction returned early. */
  function Step(m: Machine, rnd: nat): (r: Outcome)
    requires Wf(m)
    ensures (r.Advanced? || r.NoEpilogue?) ==> Wf(r.next)
    ensures (r.Advanced? || r.NoEpilogue?) && BinaryDisplay(m) ==> BinaryDisplay(r.next)
    ensures m.pc + 1 >= MEMORY_SIZE ==> r.Undefined? && r.fault.MemoryOutOfRange?
    ensures r.Fatal? ==> m.pc + 1 < MEMORY_SIZE && r.opcode == Fetch(m)
  {
    if m.pc + 1 >= MEMORY_SIZE then
      Undefined(MemoryOutOfRange(if m.pc < MEMORY_SIZE then m.pc + 1 else m.pc))
    else
      match Execute(m, Fetch(m), rnd)
      case Advanced(m') => Advanced(Epilogue(m'))
      case other => other
  }
}

=== FILE: keypad.dfy ===
/**
 The hexadecimal keypad: `handle_key`'s table from physical keys to the 16
 logical key latches, and the scan `Fx0A` runs over the latches.

 The physical key codes of the windowing library are an abstract type here:
 one constructor per mapped key and `Other` for every key the table ignores.
 */
module Keypad {
  import opened Base
  import opened State

  datatype PhysicalKey =
    | Key1 | Key2 | Key3 | Key4
    | KeyQ | KeyW | KeyE | KeyR
    | KeyA | KeyS | KeyD | KeyF
    | KeyZ | KeyX | KeyC | KeyV
    | Other(code: int)

  /** The logical key a physical key is latched into, if any. */
  function KeyIndex(k: PhysicalKey): (r: Option<nibble>)
    ensures r.None? <==> k.Other?
  {
    match k
    case Key1 => Some(0x1)
    case Key2 => Some(0x2)
    case Key3 => Some(0x3)
    case Key4 => Some(0xC)
    case KeyQ => Some(0x4)
    case KeyW => Some(0x5)
    case KeyE => Some(0x6)
    case KeyR => Some(0xD)
    case KeyA => Some(0x7)
    case KeyS => Some(0x8)
    case KeyD => Some(0x9)
    case KeyF => Some(0xE)
    case KeyZ => Some(0xA)
    case KeyX => Some(0x0)
    case KeyC => Some(0xB)
    case KeyV => Some(0xF)
    case Other(_) => None
  }

  /** The physical key that drives logical key `i`: the inverse table. */
  function KeyFor(i: nibble): (k: PhysicalKey)
    ensures !k.Other?
  {
    [KeyX, Key1, Key2, Key3, KeyQ, KeyW, KeyE, KeyA, KeyS, KeyD, KeyZ, KeyC, Key4, KeyR, KeyF, KeyV][i]
  }

  /** The table is a bijection between the 16 mapped keys and the 16 latches:
      every latch has exactly one key, and `KeyFor` names it. */
  lemma KeyTableBijective(k: PhysicalKey, i: nibble)
    ensures KeyIndex(KeyFor(i)) == Some(i)
    ensures KeyIndex(k) == Some(i) ==> k == KeyFor(i)
  {
  }

  /** `handle_key`: a mapped key stores `isDown`, converted to `unsigned char`,
      into its latch; any other key writes nothing. */
  function HandleKey(m: Machine, k: PhysicalKey, isDown: int): (r: Machine)
    requires Wf(m)
    ensures Wf(r)
    ensures k.Other? ==> r == m
    ensures !k.Other? ==> r == m.(keys := r.keys)
    ensures !k.Other? ==> forall j :: 0 <= j < KEY_COUNT ==>
      r.keys[j] == if k == KeyFor(j) then ToByte(isDown) else m.keys[j]
  {
    match KeyIndex(k)
    case None => m
    case Some(i) => m.(keys := m.keys[i := ToByte(isDown)])
  }

  /** Fx0A's loop `for (i = 0; i < 16; ++i) if (keys[i] != 0) ...` from
      iteration `i` on: every nonzero latch overwrites the previous find, so
      the result is the HIGHEST pressed key, or `None` when all are zero. */
  function ScanKeys(keys: seq<byte>, i: nat, found: Option<nibble>): (r: Option<nibble>)
    requires |keys| == KEY_COUNT && i <= KEY_COUNT
    requires found.Some? ==> found.value < i && keys[found.value] != 0
    requires found.Some? ==> forall j :: found.value < j < i ==> keys[j] == 0
    requires found.None? ==> forall j :: 0 <= j < i ==> keys[j] == 0
    ensures r.None? <==> forall j :: 0 <= j < KEY_COUNT ==> keys[j] == 0
    ensures r.Some? ==> keys[r.value] != 0
    ensures r.Some? ==> forall j :: r.value < j < KEY_COUNT ==> keys[j] == 0
    decreases KEY_COUNT - i, keys  // second component only for proof performance
  {
    if i == KEY_COUNT then found
    else if keys[i] != 0 then ScanKeys(keys, i + 1, Some(i))
    else ScanKeys(keys, i + 1, found)
  }

  /** The key Fx0A stores: the largest index whose latch is nonzero. */
  function PressedKey(keys: seq<byte>): (r: Option<nibble>)
    requires |keys| == KEY_COUNT
    ensures r.None? <==> forall j :: 0 <= j < KEY_COUNT ==> keys[j] == 0
    ensures r.Some? ==> keys[r.value] != 0 && forall j :: r.value < j < KEY_COUNT ==> keys[j] == 0
  {
    ScanKeys(keys, 0, None)
  }
}

=== FILE: sprite.dfy ===
/**
 The `Dxyn` sprite draw.

 For each row `Y < n` the source reads the sprite byte `memory[index + Y]`,
 and for each column `X < 8` whose bit is set (most significant first) it
 recomputes the target cell `(V[y] + Y) * WIDTH + V[x] + X` from the CURRENT
 registers, copies the cell into V[0xF] and XORs the cell with 1. Nothing is
 clipped or wrapped: a sprite byte or a cell outside its array is a fault.
 The two nested loops are the two recursive functions below.
 */
module Sprite {
  import opened Base
  import opened State
  import opened Bits

  /** Sprite column `col` is set, with column 0 the most significant bit of
      the byte: binary digit `7 - col`. */
  predicate BitSet(pixel: byte, col: nat)
    requires col < 8
  {
    Bit(pixel, 7 - col)
  }

  /** The mask `0x80 >> col` of sprite column `col`. */
  function ColumnMask(col: nat): (mask: nat)
    requires col < 8
    ensures mask == Pow2(7 - col)
  {
    ShiftedMask(col);
    0x80 / Pow2(col)
  }

  /** The test of the draw loop, `pixel & (0x80 >> col)` being nonzero, is
      exactly `BitSet`. */
  lemma BitSetIsMask(pixel: byte, col: nat)
    requires col < 8
    ensures BitSet(pixel, col) <==> And(pixel, ColumnMask(col)) != 0
  {
    SingleBit(pixel, 7 - col);
  }

  /** The display cell for sprite row `row` and column `col`: the display is
      row-major, WIDTH cells per line, and nothing wraps, so a column past
      the right edge spills into the next line. */
  function Cell(vx: byte, vy: byte, row: nat, col: nat): (c: nat)
    ensures vx + col < WIDTH ==> c / WIDTH == vy + row && c % WIDTH == vx + col
    ensures vx + col >= WIDTH ==> c / WIDTH > vy + row
  {
    (vy + row) * WIDTH + vx + col
  }

  /** `cell ^= 1` on a byte. */
  function Toggle(b: byte): (r: byte)
    ensures b <= 1 ==> r <= 1 && r != b
    ensures r / 2 == b / 2 && r % 2 != b % 2
  {
    if b % 2 == 0 then b + 1 else b - 1
  }

  /** `m'` differs from `m` at most in display cells and in V[0xF]. */
  predicate DrawFrame(m: Machine, m': Machine)
    requires Wf(m)
  {
    && Wf(m')
    && m' == m.(display := m'.display, v := m'.v)
    && forall i :: 0 <= i < REGISTERS && i != VF ==> m'.v[i] == m.v[i]
  }

  /** The inner loop over columns `col..8` of sprite row `row`. */
  function DrawColumns(m: Machine, x: nibble, y: nibble, row: nat, pixel: byte, col: nat): (r: Result<Machine, Fault>)
    requires Wf(m) && col <= 8
    ensures r.Ok? ==> DrawFrame(m, r.value)
    ensures r.Ok? && BinaryDisplay(m) ==> BinaryDisplay(r.value)
    ensures r.Ok? && (forall X :: col <= X < 8 ==> !BitSet(pixel, X)) ==> r.value == m
    decreases 8 - col, pixel  // second component only for proof performance
  {
    if col == 8 then Ok(m)
    else if !BitSet(pixel, col) then DrawColumns(m, x, y, row, pixel, col + 1)
    else
      var cell := Cell(m.v[x], m.v[y], row, col);
      if cell >= DISPLAY_SIZE then Err(DisplayOutOfRange(cell))
      else
        var prior := m.display[cell];
        DrawColumns(m.(v := m.v[VF := prior], display := m.display[cell := Toggle(prior)]), x, y, row, pixel, col + 1)
  }

  /** The outer loop over rows `row..n`. */
  function DrawRows(m: Machine, x: nibble, y: nibble, n: nibble, row: nat): (r: Result<Machine, Fault>)
    requires Wf(m) && row <= n
    ensures r.Ok? ==> DrawFrame(m, r.value)
    ensures r.Ok? && BinaryDisplay(m) ==> BinaryDisplay(r.value)
    decreases n - row
  {
    if row == n then Ok(m)
    else if m.index + row >= MEMORY_SIZE then Err(MemoryOutOfRange(m.index + row))
    else
      match DrawColumns(m, x, y, row, m.memory[m.index + row], 0)
      case Err(f) => Err(f)
      case Ok(m') => DrawRows(m', x, y, n, row + 1)
  }

  /** `Dxyn`: draw the `n`-row sprite at memory[index] and request a redraw.
      Only display cells, V[0xF] and `needDraw` can change, and a display of
      zeros and ones stays one. */
  function DrawSprite(m: Machine, x: nibble, y: nibble, n: nibble): (r: Result<Machine, Fault>)
    requires Wf(m)
    ensures r.Ok? ==> r.value.needDraw && DrawFrame(m.(needDraw := true), r.value)
    ensures r.Ok? && BinaryDisplay(m) ==> BinaryDisplay(r.value)
  {
    match DrawRows(m, x, y, n, 0)
    case Err(f) => Err(f)
    case Ok(m') => Ok(m'.(needDraw := true))
  }
}

=== FILE: sprite_spec.dfy ===
/**
 What `Dxyn` computes, stated without the loops, for the case where neither
 coordinate register is V[0xF] (so the collision flag written during the
 draw cannot move the sprite):

 - the cells toggled are exactly the cells under set sprite bits, each once;
 - every other cell keeps its value;
 - V[0xF] ends as the prior value of the cell under the LAST set bit in
   row-major order, or keeps its value when no bit is set.
 */
module SpriteSpec {
  import opened Base
  import opened State
  import opened Sprite

  /** Sprite bit (Y, X) of the sprite at memory[index] is set. */
  predicate SetBitAt(m: Machine, Y: nat, X: nat) {
    X < 8 && m.index + Y < |m.memory| && BitSet(m.memory[m.index + Y], X)
  }

  /** (Y, X) comes before (row, col) in the draw's row-major order. */
  predicate Before(Y: nat, X: nat, row: nat, col: nat) {
    Y < row || (Y == row && X < col)
  }

  /** Cell `c` is under a set sprite bit that comes before (row, col). */
  ghost predicate HitBefore(m: Machine, vx: byte, vy: byte, row: nat, col: nat, c: int) {
    exists Y: nat, X: nat :: Before(Y, X, row, col) && SetBitAt(m, Y, X) && Cell(vx, vy, Y, X) == c
  }

  /** Cell `c` is under some set bit of the `n`-row sprite drawn at (vx, vy). */
  ghost predicate Covered(m: Machine, vx: byte, vy: byte, n: nat, c: int) {
    HitBefore(m, vx, vy, n, 0, c)
  }

  /** The last set sprite bit before (row, col), found by scanning backwards. */
  function LastBefore(m: Machine, row: nat, col: nat): (r: Option<(nat, nat)>)
    requires col <= 8
    requires col > 0 ==> m.index + row < |m.memory|
    requires row > 0 ==> m.index + row <= |m.memory|
    ensures r.None? ==> forall Y: nat, X: nat :: Before(Y, X, row, col) ==> !SetBitAt(m, Y, X)
    ensures r.Some? ==> Before(r.value.0, r.value.1, row, col) && SetBitAt(m, r.value.0, r.value.1)
    ensures r.Some? ==> forall Y: nat, X: nat :: Before(Y, X, row, col) && SetBitAt(m, Y, X) ==>
      !Before(r.value.0, r.value.1, Y, X)
    decreases row, col
  {
    if col == 0 then
      if row == 0 then None else LastBefore(m, row - 1, 8)
    else if BitSet(m.memory[m.index + row], col - 1) then Some((row, col - 1))
    else LastBefore(m, row, col - 1)
  }

  /** Two sprite bits never land on the same cell: rows are WIDTH cells apart
      and a sprite row is only 8 cells wide. */
  lemma CellInjective(vx: byte, vy: byte, Y: nat, X: nat, Y': nat, X': nat)
    requires X < 8 && X' < 8
    requires Cell(vx, vy, Y, X) == Cell(vx, vy, Y', X')
    ensures Y == Y' && X == X'
  {
  }

  /** The collision flag predicted by `LastBefore`. */
  function FlagAfter(m0: Machine, vx: byte, vy: byte, last: Option<(nat, nat)>): byte
    requires Wf(m0)
  {
    match last
    case None => m0.v[VF]
    case Some((Y, X)) =>
      var c := Cell(vx, vy, Y, X);
      if c < DISPLAY_SIZE then m0.display[c] else m0.v[VF]
  }

  /** The draw of `m0` has reached (row, col) and produced `m`. */
  ghost predicate Progress(m0: Machine, x: nibble, y: nibble, m: Machine, row: nat, col: nat)
    requires Wf(m0)
  {
    && col <= 8
    && (col > 0 ==> m0.index + row < |m0.memory|)
    && (row > 0 ==> m0.index + row <= |m0.memory|)
    && DrawFrame(m0, m)
    && (forall c :: 0 <= c < DISPLAY_SIZE ==>
          m.display[c] == if HitBefore(m0, m0.v[x], m0.v[y], row, col, c) then Toggle(m0.display[c]) else m0.display[c])
    && m.v[VF] == FlagAfter(m0, m0.v[x], m0.v[y], LastBefore(m0, row, col))
  }

  /** One column of the inner loop keeps `Progress`: the loop goes on from
      `m'`, which is `m` with the column's cell toggled and copied into
      V[0xF] when the column's bit is set, and `m` itself otherwise. */
  lemma ColumnStep(m0: Machine, x: nibble, y: nibble, m: Machine, row: nat, col: nat) returns (m': Machine)
    requires Wf(m0) && x != VF && y != VF && col < 8
    requires m0.index + row < |m0.memory|
    requires Progress(m0, x, y, m, row, col)
    requires SetBitAt(m0, row, col) ==> Cell(m0.v[x], m0.v[y], row, col) < DISPLAY_SIZE
    ensures var cell := Cell(m0.v[x], m0.v[y], row, col);
      if SetBitAt(m0, row, col)
      then m' == m.(v := m.v[VF := m.display[cell]], display := m.display[cell := Toggle(m.display[cell])])
      else m' == m
    ensures Progress(m0, x, y, m', row, col + 1)
    ensures var pixel := m0.memory[m0.index + row];
      DrawColumns(m, x, y, row, pixel, col) == DrawColumns(m', x, y, row, pixel, col + 1)
  {
    var vx, vy := m0.v[x], m0.v[y];
    assert m.v[x] == vx && m.v[y] == vy;
    var pixel := m0.memory[m0.index + row];
    var here := Cell(vx, vy, row, col);
    forall c | 0 <= c < DISPLAY_SIZE
      ensures HitBefore(m0, vx, vy, row, col + 1, c) <==>
        HitBefore(m0, vx, vy, row, col, c) || (SetBitAt(m0, row, col) && c == here)
    {
      if HitBefore(m0, vx, vy, row, col + 1, c) {
        var Y: nat, X: nat :| Before(Y, X, row, col + 1) && SetBitAt(m0, Y, X) && Cell(vx, vy, Y, X) == c;
        if !(Y == row && X == col) {
          assert Before(Y, X, row, col);
        }
      }
      if SetBitAt(m0, row, col) && c == here {
        assert Before(row, col, row, col + 1);
      }
      if HitBefore(m0, vx, vy, row, col, c) {
        var Y: nat, X: nat :| Before(Y, X, row, col) && SetBitAt(m0, Y, X) && Cell(vx, vy, Y, X) == c;
        assert Before(Y, X, row, col + 1);
      }
    }
    if BitSet(pixel, col) {
      assert SetBitAt(m0, row, col);
      m' := m.(v := m.v[VF := m.display[here]], display := m.display[here := Toggle(m.display[here])]);
      assert !HitBefore(m0, vx, vy, row, col, here) by {
        if HitBefore(m0, vx, vy, row, col, here) {
          var Y: nat, X: nat :| Before(Y, X, row, col) && SetBitAt(m0, Y, X) && Cell(vx, vy, Y, X) == here;
          CellInjective(vx, vy, Y, X, row, col);
        }
      }
      assert LastBefore(m0, row, col + 1) == Some((row, col));
    } else {
      m' := m;
      assert LastBefore(m0, row, col + 1) == LastBefore(m0, row, col);
    }
  }

  /** The inner loop, run to the end of the row, keeps `Progress`; `m'` is
      the machine at the end of the row. */
  lemma {:induction false} Columns(m0: Machine, x: nibble, y: nibble, m: Machine, row: nat, col: nat) returns (m': Machine)
    requires Wf(m0) && x != VF && y != VF && col <= 8
    requires m0.index + row < |m0.memory|
    requires Progress(m0, x, y, m, row, col)
    requires forall X: nat :: col <= X < 8 && SetBitAt(m0, row, X) ==> Cell(m0.v[x], m0.v[y], row, X) < DISPLAY_SIZE
    ensures Progress(m0, x, y, m', row, 8)
    ensures DrawColumns(m, x, y, row, m0.memory[m0.index + row], col) == Ok(m')
    decreases 8 - col
  {
    if col < 8 {
      var next := ColumnStep(m0, x, y, m, row, col);
      m' := Columns(m0, x, y, next, row, col + 1);
    } else {
      m' := m;
    }
  }

  /** Finishing row `row` is starting row `row + 1`. */
  lemma RowBoundary(m0: Machine, x: nibble, y: nibble, m: Machine, row: nat)
    requires Wf(m0)
    requires m0.index + row < |m0.memory|
    requires Progress(m0, x, y, m, row, 8)
    ensures Progress(m0, x, y, m, row + 1, 0)
  {
    var vx, vy := m0.v[x], m0.v[y];
    forall c | 0 <= c < DISPLAY_SIZE
      ensures HitBefore(m0, vx, vy, row + 1, 0, c) <==> HitBefore(m0, vx, vy, row, 8, c)
    {
      if HitBefore(m0, vx, vy, row + 1, 0, c) {
        var Y: nat, X: nat :| Before(Y, X, row + 1, 0) && SetBitAt(m0, Y, X) && Cell(vx, vy, Y, X) == c;
        assert Before(Y, X, row, 8);
      }
      if HitBefore(m0, vx, vy, row, 8, c) {
        var Y: nat, X: nat :| Before(Y, X, row, 8) && SetBitAt(m0, Y, X) && Cell(vx, vy, Y, X) == c;
        assert Before(Y, X, row + 1, 0);
      }
    }
  }

  /** The outer loop from row `row` on keeps `Progress` to the end. */
  lemma {:induction false} Rows(m0: Machine, x: nibble, y: nibble, n: nibble, m: Machine, row: nat)
    requires Wf(m0) && x != VF && y != VF && row <= n
    requires m0.index + n <= MEMORY_SIZE
    requires Progress(m0, x, y, m, row, 0)
    requires forall Y: nat, X: nat :: row <= Y < n && SetBitAt(m0, Y, X) ==> Cell(m0.v[x], m0.v[y], Y, X) < DISPLAY_SIZE
    ensures DrawRows(m, x, y, n, row).Ok?
    ensures Progress(m0, x, y, DrawRows(m, x, y, n, row).value, n, 0)
    decreases n - row
  {
    if row < n {
      assert m.index == m0.index && m.memory == m0.memory;
      var m' := Columns(m0, x, y, m, row, 0);
      NextRow(m, x, y, n, row, m');
      RowBoundary(m0, x, y, m', row);
      Rows(m0, x, y, n, m', row + 1);
    }
  }

  /** Once row `row` has drawn to `m'`, the outer loop goes on from `m'`. */
  lemma NextRow(m: Machine, x: nibble, y: nibble, n: nibble, row: nat, m': Machine)
    requires Wf(m) && row < n && m.index + row < MEMORY_SIZE
    requires DrawColumns(m, x, y, row, m.memory[m.index + row], 0) == Ok(m')
    ensures Wf(m') && DrawRows(m, x, y, n, row) == DrawRows(m', x, y, n, row + 1)
  {
  }

  /** `Dxyn` with V[x], V[y] not the flag register and everything in range:
      exactly the covered cells are toggled, the collision flag is the prior
      value of the last toggled cell (or unchanged), and a redraw is requested. */
  lemma DrawToggles(m: Machine, x: nibble, y: nibble, n: nibble)
    requires Wf(m) && x != VF && y != VF
    requires n == 0 || m.index + n <= MEMORY_SIZE
    requires forall Y: nat, X: nat :: Y < n && SetBitAt(m, Y, X) ==> Cell(m.v[x], m.v[y], Y, X) < DISPLAY_SIZE
    ensures DrawSprite(m, x, y, n).Ok?
    ensures var m' := DrawSprite(m, x, y, n).value;
      && m'.needDraw
      && m' == m.(display := m'.display, v := m'.v, needDraw := true)
      && (forall i :: 0 <= i < REGISTERS && i != VF ==> m'.v[i] == m.v[i])
      && (forall c :: 0 <= c < DISPLAY_SIZE ==>
            m'.display[c] == if Covered(m, m.v[x], m.v[y], n, c) then Toggle(m.display[c]) else m.display[c])
      && m'.v[VF] == FlagAfter(m, m.v[x], m.v[y], LastBefore(m, n, 0))
  {
    if n == 0 {
      forall c | 0 <= c < DISPLAY_SIZE
        ensures !Covered(m, m.v[x], m.v[y], n, c)
      {
      }
    } else {
      forall c | 0 <= c < DISPLAY_SIZE
        ensures !HitBefore(m, m.v[x], m.v[y], 0, 0, c)
      {
      }
      assert Progress(m, x, y, m, 0, 0);
      Rows(m, x, y, n, m, 0);
    }
  }

  /** A draw that succeeds read every sprite byte from memory and found every
      set bit's cell on the display: the converse of `DrawToggles`. */
  lemma {:induction false} ColumnsInRange(m: Machine, x: nibble, y: nibble, row: nat, pixel: byte, col: nat)
    requires Wf(m) && x != VF && y != VF && col <= 8
    requires DrawColumns(m, x, y, row, pixel, col).Ok?
    ensures forall X: nat :: col <= X < 8 && BitSet(pixel, X) ==> Cell(m.v[x], m.v[y], row, X) < DISPLAY_SIZE
    decreases 8 - col
  {
    if col < 8 {
      if BitSet(pixel, col) {
        var cell := Cell(m.v[x], m.v[y], row, col);
        ColumnsInRange(m.(v := m.v[VF := m.display[cell]], display := m.display[cell := Toggle(m.display[cell])]),
                       x, y, row, pixel, col + 1);
      } else {
        ColumnsInRange(m, x, y, row, pixel, col + 1);
      }
    }
  }

  /** Every set bit of sprite rows `from..n` lands on the display. */
  ghost predicate BitsOnDisplay(m: Machine, vx: byte, vy: byte, from: nat, n: nat) {
    forall Y: nat, X: nat :: from <= Y < n && SetBitAt(m, Y, X) ==> Cell(vx, vy, Y, X) < DISPLAY_SIZE
  }

  lemma {:induction false} RowsInRange(m: Machine, x: nibble, y: nibble, n: nibble, row: nat)
    requires Wf(m) && x != VF && y != VF && row <= n
    requires DrawRows(m, x, y, n, row).Ok?
    ensures row < n ==> m.index + n <= MEMORY_SIZE
    ensures BitsOnDisplay(m, m.v[x], m.v[y], row, n)
    decreases n - row
  {
    if row < n {
      var m' := RowHead(m, x, y, n, row);
      RowsInRange(m', x, y, n, row + 1);
      InRangeStep(m, m', m.v[x], m.v[y], n, row);
    }
  }

  /** A draw that succeeds from row `row` read that row's sprite byte, found
      every set bit of it on the display, and went on successfully from a
      machine `m'` with the same sprite and coordinates. */
  lemma RowHead(m: Machine, x: nibble, y: nibble, n: nibble, row: nat) returns (m': Machine)
    requires Wf(m) && x != VF && y != VF && row < n
    requires DrawRows(m, x, y, n, row).Ok?
    ensures m.index + row < MEMORY_SIZE
    ensures forall X: nat :: X < 8 && BitSet(m.memory[m.index + row], X) ==> Cell(m.v[x], m.v[y], row, X) < DISPLAY_SIZE
    ensures Wf(m') && m'.memory == m.memory && m'.index == m.index && m'.v[x] == m.v[x] && m'.v[y] == m.v[y]
    ensures DrawRows(m', x, y, n, row + 1).Ok?
  {
    var pixel := m.memory[m.index + row];
    ColumnsInRange(m, x, y, row, pixel, 0);
    m' := DrawColumns(m, x, y, row, pixel, 0).value;
  }

  /** One row of `RowsInRange`: the current row's bits and the later rows'
      bits (read from a machine with the same sprite) together cover the
      rows from `row` on. */
  lemma InRangeStep(m: Machine, m': Machine, vx: byte, vy: byte, n: nat, row: nat)
    requires m'.memory == m.memory && m'.index == m.index && row < n
    requires m.index + row < |m.memory|
    requires forall X: nat :: X < 8 && BitSet(m.memory[m.index + row], X) ==> Cell(vx, vy, row, X) < DISPLAY_SIZE
    requires row + 1 < n ==> m'.index + n <= |m.memory|
    requires BitsOnDisplay(m', vx, vy, row + 1, n)
    ensures m.index + n <= |m.memory|
    ensures BitsOnDisplay(m, vx, vy, row, n)
  {
    forall Y: nat, X: nat | row <= Y < n && SetBitAt(m, Y, X)
      ensures Cell(vx, vy, Y, X) < DISPLAY_SIZE
    {
      if Y > row {
        assert SetBitAt(m', Y, X);
      }
    }
  }

  /** With V[x], V[y] not the flag register, `Dxyn` faults exactly when a
      sprite byte lies past the end of memory or a set bit lands past the
      last display cell. */
  lemma DrawSucceedsIff(m: Machine, x: nibble, y: nibble, n: nibble)
    requires Wf(m) && x != VF && y != VF
    ensures DrawSprite(m, x, y, n).Ok? <==>
      && (n == 0 || m.index + n <= MEMORY_SIZE)
      && forall Y: nat, X: nat :: Y < n && SetBitAt(m, Y, X) ==> Cell(m.v[x], m.v[y], Y, X) < DISPLAY_SIZE
  {
    if DrawSprite(m, x, y, n).Ok? {
      RowsInRange(m, x, y, n, 0);
    } else if (n == 0 || m.index + n <= MEMORY_SIZE)
      && forall Y: nat, X: nat :: Y < n && SetBitAt(m, Y, X) ==> Cell(m.v[x], m.v[y], Y, X) < DISPLAY_SIZE {
      DrawToggles(m, x, y, n);
    }
  }

  /** Two machines with the same memory and index hold the same sprite, so
      they cover the same cells and agree on the last set bit. */
  lemma SameSprite(m: Machine, m': Machine, vx: byte, vy: byte, n: nibble)
    requires m'.memory == m.memory && m'.index == m.index
    requires n == 0 || m.index + n <= |m.memory|
    ensures forall c :: Covered(m', vx, vy, n, c) == Covered(m, vx, vy, n, c)
    ensures LastBefore(m', n, 0) == LastBefore(m, n, 0)
  {
    assert forall Y: nat, X: nat :: SetBitAt(m', Y, X) == SetBitAt(m, Y, X);
    LastBeforeFollowsSprite(m, m', n, 0);
  }

  /** Toggling the same cells twice restores a display. */
  lemma ToggleTwice(d0: seq<byte>, d1: seq<byte>, d2: seq<byte>, cover: int -> bool)
    requires |d0| == |d1| == |d2|
    requires forall c :: 0 <= c < |d0| ==> d1[c] == if cover(c) then Toggle(d0[c]) else d0[c]
    requires forall c :: 0 <= c < |d0| ==> d2[c] == if cover(c) then Toggle(d1[c]) else d1[c]
    ensures d2 == d0
  {
    forall c | 0 <= c < |d0|
      ensures d2[c] == d0[c]
    {
      if cover(c) {
        assert d2[c] == Toggle(Toggle(d0[c]));
      }
    }
  }

  /** Drawing the same sprite twice at the same place restores the display,
      and on a display of zeros and ones the second draw's collision flag is
      the complement of the cell under the last set bit: a sprite drawn onto
      a blank spot and drawn again reports a collision the second time. */
  lemma DrawTwiceRestores(m: Machine, x: nibble, y: nibble, n: nibble)
    requires Wf(m) && x != VF && y != VF && BinaryDisplay(m)
    requires n == 0 || m.index + n <= MEMORY_SIZE
    requires forall Y: nat, X: nat :: Y < n && SetBitAt(m, Y, X) ==> Cell(m.v[x], m.v[y], Y, X) < DISPLAY_SIZE
    ensures DrawSprite(m, x, y, n).Ok?
    ensures DrawSprite(DrawSprite(m, x, y, n).value, x, y, n).Ok?
    ensures var twice := DrawSprite(DrawSprite(m, x, y, n).value, x, y, n).value;
      && twice.display == m.display
      && (LastBefore(m, n, 0).None? ==> twice.v[VF] == m.v[VF])
      && (LastBefore(m, n, 0).Some? ==>
            var c := Cell(m.v[x], m.v[y], LastBefore(m, n, 0).value.0, LastBefore(m, n, 0).value.1);
            c < DISPLAY_SIZE && twice.v[VF] == 1 - m.display[c])
  {
    var vx, vy := m.v[x], m.v[y];
    DrawToggles(m, x, y, n);
    var once := DrawSprite(m, x, y, n).value;
    SameSprite(m, once, vx, vy, n);
    DrawToggles(once, x, y, n);
    var twice := DrawSprite(once, x, y, n).value;
    ToggleTwice(m.display, once.display, twice.display, c => Covered(m, vx, vy, n, c));
    match LastBefore(m, n, 0)
    case None =>
    case Some((Y, X)) =>
      var c := Cell(vx, vy, Y, X);
      assert Covered(m, vx, vy, n, c) by {
        assert Before(Y, X, n, 0) && SetBitAt(m, Y, X);
      }
      assert once.display[c] == Toggle(m.display[c]);
  }

  /** `LastBefore` only looks at the sprite bytes. */
  lemma {:induction false} LastBeforeFollowsSprite(m: Machine, m': Machine, row: nat, col: nat)
    requires m'.memory == m.memory && m'.index == m.index && col <= 8
    requires col > 0 ==> m.index + row < |m.memory|
    requires row > 0 ==> m.index + row <= |m.memory|
    ensures LastBefore(m', row, col) == LastBefore(m, row, col)
    decreases row, col
  {
    if col == 0 {
      if row > 0 {
        LastBeforeFollowsSprite(m, m', row - 1, 8);
      }
    } else {
      LastBeforeFollowsSprite(m, m', row, col - 1);
    }
  }
}

=== FILE: state.dfy ===
/**
 The machine image of `struct Chip8` and the constants that size it.

 Fixed-size C arrays become sequences whose lengths `Wf` pins down; each
 element type is the C element type (`byte` or `word`), so no cell can ever
 hold a value its C type cannot. `need_draw` and `play_beep` are `int`s in C
 that the core only ever sets to 1; they are booleans here.
 */
module State {
  import opened Base

  const WIDTH := 64
  const HEIGHT := 32
  const PROGRAM_START_POS := 512
  const MEMORY_SIZE := 4096
  const PRESSED := 1
  const SPRITE_SIZE := 5

  /** Number of display cells, stack slots, registers and key latches. */
  const DISPLAY_SIZE := WIDTH * HEIGHT
  const STACK_SLOTS := 16
  const REGISTERS := 16
  const KEY_COUNT := 16

  /** Register 15 doubles as the carry, borrow, shift-out and collision flag. */
  const VF: nibble := 0xF

  datatype Machine = Machine(
    memory: seq<byte>,
    display: seq<byte>,
    stack: seq<word>,
    v: seq<byte>,
    keys: seq<byte>,
    delayTimer: byte,
    soundTimer: byte,
    sp: word,
    pc: word,
    index: word,
    needDraw: bool,
    playBeep: bool)

  /** The array sizes fixed by the struct declaration. */
  predicate Wf(m: Machine) {
    && |m.memory| == MEMORY_SIZE
    && |m.display| == DISPLAY_SIZE
    && |m.stack| == STACK_SLOTS
    && |m.v| == REGISTERS
    && |m.keys| == KEY_COUNT
  }

  /** Every display cell is a pixel value, 0 or 1. */
  predicate BinaryDisplay(m: Machine) {
    forall c :: 0 <= c < |m.display| ==> m.display[c] <= 1
  }

  /** Unchecked accesses of the source that would leave their array. */
  datatype Fault =
    | MemoryOutOfRange(address: int)
    | StackOutOfRange(slot: int)
    | DisplayOutOfRange(cell: int)
    | KeyOutOfRange(key: int)
}

=== FILE: step_props.dfy ===
/**
 Properties of one `emulate` step, stated against independent tables of
 what each instruction family promises rather than against `Execute`.
 */
module StepProperties {
  import opened Base
  import opened State
  import opened Bits
  import opened Decode
  import opened Alu
  import opened Block
  import opened Keypad
  import opened Boot
  import opened Sprite
  import opened SpriteSpec
  import opened Engine

  /** A machine whose opcode fetch stays inside memory. */
  predicate Fetchable(m: Machine) {
    Wf(m) && m.pc + 1 < MEMORY_SIZE
  }

  /** The decoded fields of the opcode at pc. */
  function Op(m: Machine): Fields
    requires Fetchable(m)
  {
    DecodeFields(Fetch(m))
  }

  /** The opcodes that end in `UNKNOWN_OP_CODE`: only the sub-switches of the
      0x0, 0x8 and 0xE groups have a failing `default:`. */
  predicate Unknown(f: Fields) {
    || (f.group == 0x0 && f.nn != 0xE0 && f.nn != 0xEE)
    || (f.group == 0x8 && !(f.n <= 7 || f.n == 0xE))
    || (f.group == 0xE && f.nn != 0x9E && f.nn != 0xA1)
  }

  /** The 0xF sub-opcodes with a case of their own. */
  predicate KnownMisc(nn: byte) {
    nn in {0x07, 0x0A, 0x15, 0x18, 0x1E, 0x29, 0x33, 0x55, 0x65}
  }

  /** A step is fatal exactly for the unknown opcodes, and reports the opcode. */
  lemma FatalIffUnknown(m: Machine, rnd: nat)
    requires Fetchable(m)
    ensures Step(m, rnd).Fatal? <==> Unknown(Op(m))
    ensures Step(m, rnd).Fatal? ==> Step(m, rnd).opcode == Fetch(m)
  {
  }

  /** An unknown `Fxnn` is not fatal: it only runs the epilogue. */
  lemma UnknownMiscOnlyTicks(m: Machine, rnd: nat)
    requires Fetchable(m) && Op(m).group == 0xF && !KnownMisc(Op(m).nn)
    ensures Step(m, rnd) == Advanced(Epilogue(m))
  {
  }

  /** `k` epilogues in a row. */
  function Ticks(m: Machine, k: nat): Machine
    decreases k
  {
    if k == 0 then m else Ticks(Epilogue(m), k - 1)
  }

  function Max(a: int, b: int): int {
    if a < b then b else a
  }

  /** Over `k` epilogues each timer counts down by `k` and stops at 0, the
      beep request is raised exactly when the sound timer expires within
      those `k` steps (and is never cleared), and pc moves 2k bytes on,
      modulo 2^16. Nothing else changes. */
  lemma {:induction false} Countdown(m: Machine, k: nat)
    ensures var t := Ticks(m, k);
      && t.delayTimer == Max(0, m.delayTimer - k)
      && t.soundTimer == Max(0, m.soundTimer - k)
      && t.playBeep == (m.playBeep || 1 <= m.soundTimer <= k)
      && t.pc == (m.pc + 2 * k) % 0x1_0000
      && t == m.(delayTimer := t.delayTimer, soundTimer := t.soundTimer, playBeep := t.playBeep, pc := t.pc)
    decreases k
  {
    if k > 0 {
      Countdown(Epilogue(m), k - 1);
    }
  }

  /** The instructions that set the timers themselves. */
  predicate WritesTimer(f: Fields) {
    f.group == 0xF && (f.nn == 0x15 || f.nn == 0x18)
  }

  /** The instructions that place pc other than by the epilogue's `+= 2`. */
  predicate MovesPc(f: Fields) {
    || f.group in {0x1, 0x2, 0x3, 0x4, 0x5, 0x9, 0xB, 0xE}
    || (f.group == 0x0 && f.nn == 0xEE)
  }

  /** Every instruction that completes normally runs the epilogue after its
      own effect: timers count down once, a beep is requested when the sound
      timer goes from 1 to 0, and pc moves to the next instruction. */
  lemma AdvancedTicks(m: Machine, rnd: nat)
    requires Fetchable(m) && Step(m, rnd).Advanced?
    ensures !WritesTimer(Op(m)) ==> var n := Step(m, rnd).next;
      && n.delayTimer == Max(0, m.delayTimer - 1)
      && n.soundTimer == Max(0, m.soundTimer - 1)
      && n.playBeep == (m.playBeep || m.soundTimer == 1)
    ensures !MovesPc(Op(m)) ==> Step(m, rnd).next.pc == (m.pc + 2) % 0x1_0000
  {
    var f := Op(m);
    if f.group == 0xF {
      assert Execute(m, Fetch(m), rnd) == ExecuteMisc(m, f);
    }
  }

  /** Fx15 and Fx18 load a timer that the epilogue then decrements at once;
      Fx18 with V[x] == 1 therefore requests a beep in the same step. */
  lemma TimerLoads(m: Machine, rnd: nat)
    requires Fetchable(m) && WritesTimer(Op(m))
    ensures Step(m, rnd).Advanced?
    ensures var n := Step(m, rnd).next; var vx := m.v[Op(m).x];
      if Op(m).nn == 0x15 then
        n.delayTimer == Max(0, vx as int - 1) && n.soundTimer == Max(0, m.soundTimer - 1)
        && n.playBeep == (m.playBeep || m.soundTimer == 1)
      else
        n.soundTimer == Max(0, vx as int - 1) && n.delayTimer == Max(0, m.delayTimer - 1)
        && n.playBeep == (m.playBeep || vx == 1)
    ensures var n := Step(m, rnd).next;
      n == Epilogue(m).(delayTimer := n.delayTimer, soundTimer := n.soundTimer, playBeep := n.playBeep)
  {
  }

  /** Fx07 copies the delay timer into V[x] before it counts down. */
  lemma TimerRead(m: Machine, rnd: nat)
    requires Fetchable(m) && Op(m).group == 0xF && Op(m).nn == 0x07
    ensures Step(m, rnd) == Advanced(Epilogue(m.(v := m.v[Op(m).x := m.delayTimer])))
  {
  }

  /** The four ways out of `emulate` that skip the epilogue: a jump, a call
      that fits the stack, a computed jump, and Fx0A with every latch zero. */
  predicate ReturnsEarly(m: Machine, f: Fields)
    requires Wf(m)
  {
    || f.group == 0x1
    || (f.group == 0x2 && (m.sp + 1) % 0x1_0000 < STACK_SLOTS)
    || f.group == 0xB
    || (f.group == 0xF && f.nn == 0x0A && forall j :: 0 <= j < KEY_COUNT ==> m.keys[j] == 0)
  }

  /** A step skips the epilogue exactly on those paths, and then leaves
      timers and the beep request alone; the idle Fx0A changes nothing at
      all, so the same instruction runs again next time. */
  lemma EarlyReturns(m: Machine, rnd: nat)
    requires Fetchable(m)
    ensures Step(m, rnd).NoEpilogue? <==> ReturnsEarly(m, Op(m))
    ensures Step(m, rnd).NoEpilogue? ==> var n := Step(m, rnd).next;
      n.delayTimer == m.delayTimer && n.soundTimer == m.soundTimer && n.playBeep == m.playBeep
    ensures Op(m).group == 0xF && Op(m).nn == 0x0A && ReturnsEarly(m, Op(m)) ==> Step(m, rnd) == NoEpilogue(m)
  {
    var f := Op(m);
    if f.group == 0xF {
      assert Execute(m, Fetch(m), rnd) == ExecuteMisc(m, f);
    }
  }

  /** Jumps: 1nnn goes to nnn, Bnnn to V[0] + nnn; nothing else changes. */
  lemma Jumps(m: Machine, rnd: nat)
    requires Fetchable(m)
    ensures Op(m).group == 0x1 ==> Step(m, rnd) == NoEpilogue(m.(pc := Op(m).nnn))
    ensures Op(m).group == 0xB ==> Step(m, rnd) == NoEpilogue(m.(pc := m.v[0] + Op(m).nnn))
  {
  }

  /** A call pushes the address of the call itself; a return made later, with
      the stack and stack pointer as the call left them, comes back to the
      instruction after the call and restores the stack pointer. */
  lemma CallThenReturn(m: Machine, rnd: nat, later: Machine, rnd': nat)
    requires Fetchable(m) && Op(m).group == 0x2
    requires (m.sp + 1) % 0x1_0000 < STACK_SLOTS
    requires Fetchable(later) && Op(later).group == 0x0 && Op(later).nn == 0xEE
    requires later.sp == (m.sp + 1) % 0x1_0000
    requires later.stack == m.stack[later.sp := m.pc]
    ensures Step(m, rnd).NoEpilogue?
    ensures var called := Step(m, rnd).next;
      called.pc == Op(m).nnn && called.sp == later.sp && called.stack == later.stack
    ensures var called := Step(m, rnd).next;
      called == m.(stack := called.stack, sp := called.sp, pc := called.pc)
    ensures Step(later, rnd').Advanced?
    ensures var back := Step(later, rnd').next;
      back.pc == (m.pc + 2) % 0x1_0000 && back.sp == m.sp && back.stack == later.stack
    ensures var back := Step(later, rnd').next;
      back == Epilogue(later).(pc := back.pc, sp := back.sp)
  {
  }

  /** Stack pointer arithmetic is unchecked: a call with the pointer at 15
      (or a return with it at 16 or more) indexes past the 16 slots. */
  lemma StackFaults(m: Machine, rnd: nat)
    requires Fetchable(m)
    ensures Op(m).group == 0x2 && (m.sp + 1) % 0x1_0000 >= STACK_SLOTS ==>
      Step(m, rnd) == Undefined(StackOutOfRange((m.sp + 1) % 0x1_0000))
    ensures Op(m).group == 0x0 && Op(m).nn == 0xEE && m.sp >= STACK_SLOTS ==>
      Step(m, rnd) == Undefined(StackOutOfRange(m.sp))
  {
  }

  /** The conditional skips. */
  predicate IsSkip(f: Fields) {
    f.group in {0x3, 0x4, 0x5, 0x9} || (f.group == 0xE && (f.nn == 0x9E || f.nn == 0xA1))
  }

  /** When a skip instruction skips. The 5 and 9 groups ignore their low
      nibble; the key tests compare the latch with PRESSED. */
  predicate SkipTaken(m: Machine, f: Fields)
    requires Wf(m) && IsSkip(f)
    requires f.group == 0xE ==> m.v[f.x] < KEY_COUNT
  {
    match f.group
    case 0x3 => m.v[f.x] == f.nn
    case 0x4 => m.v[f.x] != f.nn
    case 0x5 => m.v[f.x] == m.v[f.y]
    case 0x9 => m.v[f.x] != m.v[f.y]
    case _ => (m.keys[m.v[f.x]] == PRESSED) == (f.nn == 0x9E)
  }

  /** A skip moves pc by 4 when its condition holds and by 2 otherwise, and
      changes nothing but pc and the epilogue's timers. */
  lemma Skips(m: Machine, rnd: nat)
    requires Fetchable(m) && IsSkip(Op(m))
    requires Op(m).group == 0xE ==> m.v[Op(m).x] < KEY_COUNT
    ensures Step(m, rnd).Advanced?
    ensures var n := Step(m, rnd).next;
      && n.pc == (m.pc + if SkipTaken(m, Op(m)) then 4 else 2) % 0x1_0000
      && n == Epilogue(m).(pc := n.pc)
  {
  }

  /** The key tests index the latches with V[x] unchecked. */
  lemma KeyTestFault(m: Machine, rnd: nat)
    requires Fetchable(m) && Op(m).group == 0xE && (Op(m).nn == 0x9E || Op(m).nn == 0xA1)
    requires m.v[Op(m).x] >= KEY_COUNT
    ensures Step(m, rnd) == Undefined(KeyOutOfRange(m.v[Op(m).x]))
  {
  }

  /** 00E0, and 0xyE0 for any middle nibbles: every cell becomes 0 and a
      redraw is requested. */
  lemma ClearScreen(m: Machine, rnd: nat)
    requires Fetchable(m) && Op(m).group == 0x0 && Op(m).nn == 0xE0
    ensures Step(m, rnd).Advanced?
    ensures var n := Step(m, rnd).next;
      && (forall c :: 0 <= c < DISPLAY_SIZE ==> n.display[c] == 0)
      && n.needDraw
      && n == Epilogue(m).(display := n.display, needDraw := true)
  {
  }

  /** 6xnn and 7xnn: load and wrapping add of an immediate, flag untouched. */
  lemma Immediates(m: Machine, rnd: nat)
    requires Fetchable(m) && (Op(m).group == 0x6 || Op(m).group == 0x7)
    ensures Step(m, rnd).Advanced?
    ensures var n := Step(m, rnd).next; var f := Op(m);
      && n.v[f.x] == (if f.group == 0x6 then f.nn else (m.v[f.x] + f.nn) % 0x100)
      && (forall i :: 0 <= i < REGISTERS && i != f.x ==> n.v[i] == m.v[i])
      && n == Epilogue(m).(v := n.v)
  {
  }

  /** The 8xyN group: the register file becomes `Arith`'s, then the epilogue runs. */
  lemma ArithStep(m: Machine, rnd: nat)
    requires Fetchable(m) && Op(m).group == 0x8 && KnownArith(Op(m).n)
    ensures Step(m, rnd).Advanced?
    ensures var n := Step(m, rnd).next;
      n == Epilogue(m).(v := n.v) && Some(n.v) == Arith(m.v, Op(m).x, Op(m).y, Op(m).n)
  {
  }

  /** Cxnn: V[x] is `(rand() % 0xFF) & nn`, so it never exceeds nn and each
      of its bits is set only where nn and the random operand both have one. */
  lemma RandomMask(m: Machine, rnd: nat)
    requires Fetchable(m) && Op(m).group == 0xC
    ensures Step(m, rnd).Advanced?
    ensures var n := Step(m, rnd).next; var f := Op(m);
      && n.v[f.x] <= f.nn
      && (forall k: nat :: Bit(n.v[f.x], k) <==> Bit(rnd % 0xFF, k) && Bit(f.nn, k))
      && n == Epilogue(m).(v := m.v[f.x := n.v[f.x]])
  {
    var f := Op(m);
    forall k: nat
      ensures Bit(And(rnd % 0xFF, f.nn), k) <==> Bit(rnd % 0xFF, k) && Bit(f.nn, k)
    {
      AndBits(rnd % 0xFF, f.nn, k);
    }
  }

  /** Annn, Fx29 and Fx1E move the index register. Fx29 points it at the
      font glyph of the digit in V[x]; Fx1E adds V[x] modulo 2^16 and flags
      a sum beyond 0xFFF; for x == F the flag is written first, so the fresh
      flag is what gets added. Nothing else changes but the epilogue's fields. */
  lemma IndexMoves(m: Machine, rnd: nat)
    requires Fetchable(m)
    ensures Op(m).group == 0xA ==> Step(m, rnd) == Advanced(Epilogue(m.(index := Op(m).nnn)))
    ensures Op(m).group == 0xF && Op(m).nn == 0x29 ==>
      Step(m, rnd).Advanced? && Step(m, rnd).next.index == SPRITE_SIZE * m.v[Op(m).x]
      && Step(m, rnd).next == Epilogue(m).(index := Step(m, rnd).next.index)
    ensures Op(m).group == 0xF && Op(m).nn == 0x1E && Op(m).x != VF ==>
      Step(m, rnd).Advanced?
      && Step(m, rnd).next.index == (m.index + m.v[Op(m).x]) % 0x1_0000
      && (Step(m, rnd).next.v[VF] == 1 <==> m.index + m.v[Op(m).x] > 0xFFF)
    ensures Op(m).group == 0xF && Op(m).nn == 0x1E && Op(m).x == VF ==>
      var flag := if m.index + m.v[VF] > 0xFFF then 1 else 0;
      Step(m, rnd).Advanced?
      && Step(m, rnd).next.v[VF] == flag
      && Step(m, rnd).next.index == (m.index + flag) % 0x1_0000
    ensures Op(m).group == 0xF && Op(m).nn == 0x1E ==>
      Step(m, rnd).Advanced?
      && var n := Step(m, rnd).next;
      n == Epilogue(m).(index := n.index, v := m.v[VF := n.v[VF]])
  {
    var f := Op(m);
    if f.group == 0xF {
      assert Execute(m, Fetch(m), rnd) == ExecuteMisc(m, f);
    }
  }

  /** After Fx29 on a machine whose font is intact, the 5 bytes at index are
      the glyph of the digit in V[x]. */
  lemma FontGlyph(m: Machine, rnd: nat)
    requires Fetchable(m) && Op(m).group == 0xF && Op(m).nn == 0x29
    requires m.memory[..FONT_SIZE] == FONT && m.v[Op(m).x] < 16
    ensures Step(m, rnd).Advanced?
    ensures var n := Step(m, rnd).next; var g := m.v[Op(m).x];
      n.memory[n.index .. n.index + SPRITE_SIZE] == FONT[SPRITE_SIZE * g .. SPRITE_SIZE * g + SPRITE_SIZE]
  {
    var f := Op(m);
    assert Execute(m, Fetch(m), rnd) == ExecuteMisc(m, f);
    var g := m.v[f.x];
    var n := Step(m, rnd).next;
    assert n.memory == m.memory;
    assert n.memory[SPRITE_SIZE * g .. SPRITE_SIZE * g + SPRITE_SIZE]
        == n.memory[..FONT_SIZE][SPRITE_SIZE * g .. SPRITE_SIZE * g + SPRITE_SIZE];
  }

  /** Fx33 at the step level: three decimal digits of V[x] at index, nothing
      else in memory changes, and the index register stays. */
  lemma BcdStep(m: Machine, rnd: nat)
    requires Fetchable(m) && Op(m).group == 0xF && Op(m).nn == 0x33
    ensures Step(m, rnd).Advanced? <==> m.index + 2 < MEMORY_SIZE
    ensures Step(m, rnd).Advanced? ==> var n := Step(m, rnd).next; var i := m.index;
      && n.memory[i] < 10 && n.memory[i + 1] < 10 && n.memory[i + 2] < 10
      && 100 * (n.memory[i] as int) + 10 * (n.memory[i + 1] as int) + n.memory[i + 2] == m.v[Op(m).x]
      && (forall j :: 0 <= j < MEMORY_SIZE && !(i <= j <= i + 2) ==> n.memory[j] == m.memory[j])
      && n == Epilogue(m).(memory := n.memory)
  {
    assert Execute(m, Fetch(m), rnd) == ExecuteMisc(m, Op(m));
  }

  /** Fx55 at the step level: V[0..x] copied to memory[index..index+x],
      memory elsewhere unchanged, index advanced by x + 1. */
  lemma SaveStep(m: Machine, rnd: nat)
    requires Fetchable(m) && Op(m).group == 0xF && Op(m).nn == 0x55
    ensures Step(m, rnd).Advanced? <==> m.index + Op(m).x < MEMORY_SIZE
    ensures Step(m, rnd).Advanced? ==> var n := Step(m, rnd).next; var i := m.index; var x := Op(m).x;
      && (forall j :: 0 <= j < MEMORY_SIZE ==> n.memory[j] == if i <= j <= i + x then m.v[j - i] else m.memory[j])
      && n.index == (i + x + 1) % 0x1_0000
      && n == Epilogue(m).(memory := n.memory, index := n.index)
  {
    SaveDispatch(m, rnd);
    var f := Op(m);
    var r := SaveRegisters(m.memory, m.v, m.index, f.x, 0);
    if r.Ok? {
      var saved := m.(memory := r.value, index := ToWord(m.index + f.x + 1));
      assert Step(m, rnd).next == Epilogue(saved);
    }
  }

  /** Fx65 at the step level: memory[index..index+x] copied to V[0..x], the
      other registers unchanged, index advanced by x + 1. */
  lemma LoadStep(m: Machine, rnd: nat)
    requires Fetchable(m) && Op(m).group == 0xF && Op(m).nn == 0x65
    ensures Step(m, rnd).Advanced? <==> m.index + Op(m).x < MEMORY_SIZE
    ensures Step(m, rnd).Advanced? ==> var n := Step(m, rnd).next; var i := m.index; var x := Op(m).x;
      && (forall j :: 0 <= j < REGISTERS ==> n.v[j] == if j <= x then m.memory[i + j] else m.v[j])
      && n.index == (i + x + 1) % 0x1_0000
      && n == Epilogue(m).(v := n.v, index := n.index)
  {
    LoadDispatch(m, rnd);
    var f := Op(m);
    var r := LoadRegisters(m.memory, m.v, m.index, f.x, 0);
    if r.Ok? {
      var loaded := m.(v := r.value, index := ToWord(m.index + f.x + 1));
      assert Step(m, rnd).next == Epilogue(loaded);
    }
  }

  /** Fx0A with a key down stores the HIGHEST pressed key index in V[x] and
      completes normally. */
  lemma KeyWait(m: Machine, rnd: nat)
    requires Fetchable(m) && Op(m).group == 0xF && Op(m).nn == 0x0A
    requires exists j :: 0 <= j < KEY_COUNT && m.keys[j] != 0
    ensures Step(m, rnd).Advanced?
    ensures var n := Step(m, rnd).next; var k := n.v[Op(m).x];
      && k < KEY_COUNT && m.keys[k] != 0
      && (forall j :: k < j < KEY_COUNT ==> m.keys[j] == 0)
      && n == Epilogue(m).(v := m.v[Op(m).x := k])
  {
    assert Execute(m, Fetch(m), rnd) == ExecuteMisc(m, Op(m));
  }

  /** Dxyn, with V[x] and V[y] not the flag register: the step completes
      exactly when the sprite lies in memory and every set bit lands on the
      display, and then the covered cells are toggled, the collision flag is
      the prior value of the last toggled cell, and a redraw is requested. */
  lemma DrawStep(m: Machine, rnd: nat)
    requires Fetchable(m) && Op(m).group == 0xD && Op(m).x != VF && Op(m).y != VF
    ensures var f := Op(m);
      Step(m, rnd).Advanced? <==>
        && (f.n == 0 || m.index + f.n <= MEMORY_SIZE)
        && forall Y: nat, X: nat :: Y < f.n && SetBitAt(m, Y, X) ==> Cell(m.v[f.x], m.v[f.y], Y, X) < DISPLAY_SIZE
    ensures !Step(m, rnd).Advanced? ==> Step(m, rnd).Undefined?
    ensures Step(m, rnd).Advanced? ==>
      var f := Op(m); var n := Step(m, rnd).next; var vx := m.v[f.x]; var vy := m.v[f.y];
      && n.needDraw
      && n == Epilogue(m).(display := n.display, v := n.v, needDraw := true)
      && (forall i :: 0 <= i < REGISTERS && i != VF ==> n.v[i] == m.v[i])
      && (forall c :: 0 <= c < DISPLAY_SIZE ==>
            n.display[c] == if Covered(m, vx, vy, f.n, c) then Toggle(m.display[c]) else m.display[c])
      && n.v[VF] == FlagAfter(m, vx, vy, LastBefore(m, f.n, 0))
  {
    var f := Op(m);
    DrawDispatch(m, rnd);
    DrawSucceedsIff(m, f.x, f.y, f.n);
    if DrawSprite(m, f.x, f.y, f.n).Ok? {
      DrawToggles(m, f.x, f.y, f.n);
    }
  }

  /** A Dxyn step is the draw followed by the epilogue, or the draw's fault. */
  lemma DrawDispatch(m: Machine, rnd: nat)
    requires Fetchable(m) && Op(m).group == 0xD
    ensures var f := Op(m); var d := DrawSprite(m, f.x, f.y, f.n);
      Step(m, rnd) == if d.Ok? then Advanced(Epilogue(d.value)) else Undefined(d.error)
  {
  }

  /** An Fx55 step is the register save followed by the epilogue, or the
      save's fault. */
  lemma SaveDispatch(m: Machine, rnd: nat)
    requires Fetchable(m) && Op(m).group == 0xF && Op(m).nn == 0x55
    ensures var f := Op(m); var r := SaveRegisters(m.memory, m.v, m.index, f.x, 0);
      Step(m, rnd) == if r.Ok? then Advanced(Epilogue(m.(memory := r.value, index := ToWord(m.index + f.x + 1))))
                      else Undefined(r.error)
  {
    assert Execute(m, Fetch(m), rnd) == ExecuteMisc(m, Op(m));
  }

  /** An Fx65 step is the register load followed by the epilogue, or the
      load's fault. */
  lemma LoadDispatch(m: Machine, rnd: nat)
    requires Fetchable(m) && Op(m).group == 0xF && Op(m).nn == 0x65
    ensures var f := Op(m); var r := LoadRegisters(m.memory, m.v, m.index, f.x, 0);
      Step(m, rnd) == if r.Ok? then Advanced(Epilogue(m.(v := r.value, index := ToWord(m.index + f.x + 1))))
                      else Undefined(r.error)
  {
    assert Execute(m, Fetch(m), rnd) == ExecuteMisc(m, Op(m));
  }
}
